=== FILE: README.md ===
# AirBnB clone: database storage and Flask pages, in Dafny

This project models the core of the AirBnB clone. The core has two parts.

- **`DBStorage`.** This is the SQL-backed storage engine in `models/engine/db_storage.py`. It covers:
  - the `classes` registry;
  - `all(cls)`, which builds a dictionary keyed `ClassName.id`;
  - `new`, `save`, `delete` and `reload`;
  - the table drop in the constructor when `HBNB_ENV` is `test`.
- **The Flask handlers built on it.** These are:
  - the plain-text pages of `web_flask/3-python_route.py` and `web_flask/4-number_route.py`;
  - the state pages of `web_flask/7-states_list.py` and `web_flask/9-states.py`.

## Modules

- **Data.**
  - `Registry`: the six mapped kinds, the `classes` dict and the class map that `all` walks.
  - `Identity`: stored objects, their `(kind, id)` slot, and the `ClassName.id` key with its parser.
  - `Rows`: ordered, duplicate-free collections of rows, and slot lookup.
  - `PyDict`: a Python `dict` with insertion order.
- **`DBStorage`.**
  - The database is a map from kind to table. A table lists its rows in query order.
  - The SQLAlchemy session is abstract: the objects added and the slots deleted since the last commit.
  - Queries go through the session and see its pending changes, because SQLAlchemy flushes before it queries.
  - `all` is modelled twice, and `DBStorage.All` proves the two agree:
    - `Collect` is the loop as written;
    - `Fetched` is the list of objects it fetches.
  - Engine states carry the invariant `WellFormed`:
    - every table holds rows of its own kind, each primary key at most once;
    - the pending additions are distinct and disjoint from the pending deletions;
    - once a session exists, every registered table exists.

    Construction, `reload`, `new`, `delete` and `save` all preserve it.
- **`StorageLaws`.** Laws that relate several storage calls: the contents of `all`, the `save`/`reload` round trip, test mode.
- **`TextRoutes`.** The handlers of the two small applications, modelled once. Each application is a route table over a `Request`; a `None` answer is a 404.
- **`NameOrder`.** Python's `str` ordering, and a stable insertion sort by `name`. The sort is proved to be the only result a stable sort can give.
- **`StatePages`.**
  - The sorted list of states that both state pages pass to their templates.
  - The first state with a given id, as a function and as the loop of `states_id`.

Python exceptions become `Result` values:
- A storage call with no session is `Failure(NoSession)`. That is the `AttributeError` raised on the class-level `__session = None`.
- `delete(None)` does nothing, even when there is no session.
- `all(cls)` with no session raises only when `cls` selects some kind. Otherwise the loop never touches the session and returns `{}`.

## Model

| member | source | states |
|---|---|---|
| Registry.Name | models/engine/db_storage.py:69 | `obj.__class__.__name__` of each kind is non-empty and holds no `.`, so it can prefix an identity key. |
| Registry.RegistriesAgree | models/engine/db_storage.py:17-18 | The module-level `classes` and the class map inside `all` hold the same six names, and each name maps to the kind of that name. |
| Registry.ClassMapListsEveryKindOnce | models/engine/db_storage.py:50-57 | The class map that `all` walks lists every mapped kind, each only once. |
| Registry.ClassesKnowName | models/engine/db_storage.py:17-18 | `classes[Name(k)]` is `k` for every kind. |
| Registry.NameInjective | models/engine/db_storage.py:17-18 | Distinct kinds have distinct class names. |
| Identity.ParseKeyOf | models/engine/db_storage.py:69 | Splitting a key `ClassName.id` at its first dot gives back the kind and the id. Class names contain no dot. |
| Identity.KeyInjective | models/engine/db_storage.py:69-70 | Two objects get the same key exactly when they have the same kind and the same id. `all` never overwrites one object with another. |
| Rows.Upsert | models/engine/db_storage.py:76 | Storing an object in its slot makes every lookup of that slot find it. Every other slot is found as before, and primary keys stay distinct. |
| Rows.Without | models/engine/db_storage.py:85 | Removing slots keeps exactly the rows outside them. Lookups of removed slots find nothing, and other lookups are unchanged. |
| PyDict.Values | web_flask/7-states_list.py:32 | `len(d.values()) == len(d)`, every stored value appears among the values, and they come in the dictionary's iteration order. |
| PyDict.Set | models/engine/db_storage.py:70 | `d[key] = v`: the map gains the entry. A new key goes last in iteration order, and an existing key keeps its place. |
| PyDict.SetAllFromEmpty | models/engine/db_storage.py:60-70 | Filling `{}` with distinct keys iterates them in insertion order, and the values come back in the same order. |
| PyDict.SetAllConcat | models/engine/db_storage.py:63-70 | Filling a dictionary in two batches is filling it with their concatenation. |
| DBStorage.Query | models/engine/db_storage.py:66 | A query of kind `k` through the session returns rows of kind `k` with distinct keys. Every slot it finds holds what the session sees there: a pending delete hides the row, a pending add replaces it, otherwise the committed row shows. |
| DBStorage.QueryContents | models/engine/db_storage.py:66 | An object is in the query result exactly when it has the queried kind and the session sees it in its slot. |
| DBStorage.SelectsSomeKindMeansMatch | models/engine/db_storage.py:63-64 | The filter selects some kind exactly when the class map has an entry passing the test of line 64. |
| DBStorage.Init | models/engine/db_storage.py:26-44 | Construction installs no session. It drops every table exactly when `HBNB_ENV` is `test`, and otherwise leaves the database alone. |
| DBStorage.DropAll | models/engine/db_storage.py:44 | After `drop_all` no mapped table exists, and a query of any kind finds nothing. |
| DBStorage.Reload | models/engine/db_storage.py:87-92 | `reload()` installs a fresh session and creates every missing registered table, empty. Existing tables keep their rows. |
| DBStorage.CreateAll | models/engine/db_storage.py:89 | Every registered table exists afterwards. Tables that existed keep their rows, and the tables it creates are empty. |
| DBStorage.Stage | models/engine/db_storage.py:76 | `session.add(obj)` leaves `obj` pending and its slot no longer marked for deletion. The deletions pending for other slots stay pending, the objects pending for other slots stay pending, nothing else becomes pending, and the session's invariant is kept. |
| DBStorage.Mark | models/engine/db_storage.py:85 | `session.delete(obj)` marks `obj`'s slot and no other new one. Exactly the pending objects of other slots stay pending, and the session's invariant is kept. |
| DBStorage.New | models/engine/db_storage.py:74-76 | `new(obj)` fails exactly when there is no session, and commits nothing. Afterwards the session shows `obj` in its slot and every other slot as before. |
| DBStorage.Delete | models/engine/db_storage.py:82-85 | `delete(None)` changes nothing. `delete(obj)` fails exactly when there is no session. Otherwise it marks only `obj`'s slot: the session then finds nothing there and every other slot as before. |
| DBStorage.Save | models/engine/db_storage.py:78-80 | `save()` fails exactly when there is no session. Otherwise nothing is left pending, and every slot now holds, committed, what the session showed before. |
| DBStorage.Commit | models/engine/db_storage.py:80 | The commit creates and drops no table. In every existing table, a fresh session afterwards sees in each slot what the committing session saw there. |
| DBStorage.FetchedContents | models/engine/db_storage.py:63-66 | The objects `all` fetches have distinct slots. They are exactly the objects of the kinds the argument selects that the session sees. |
| DBStorage.Populate | models/engine/db_storage.py:68-70 | Filing objects under their keys puts every object's key in the dictionary, and the dictionary then holds exactly its old keys and those keys. When no two objects share a key, each object is the value stored under its key. Entries under other keys keep their values. |
| DBStorage.Collect | models/engine/db_storage.py:63-70 | The loop over the class map fails only when there is no session. A successful run only adds keys, and without a session it returns the dictionary unchanged. |
| DBStorage.CollectFiles | models/engine/db_storage.py:63-70 | With a session, the loop files each fetched object under its own key, in fetch order. |
| DBStorage.AllWithoutSession | models/engine/db_storage.py:63-66 | Without a session the loop raises exactly when some class-map entry passes the filter. Otherwise it returns `{}`. |
| DBStorage.All | models/engine/db_storage.py:46-72 | `all(cls)` fails only with no session and a selecting filter. Its keys are the identity keys of the fetched objects, and its values are those objects in class-map order. |
| StorageLaws.AllContents | models/engine/db_storage.py:63-70 | `all(cls)` holds `obj` under `Key(obj)` exactly when `cls` selects `obj`'s kind and the session sees `obj` in its slot. |
| StorageLaws.AllIsPopulate | models/engine/db_storage.py:63-70 | With a session in place, `all(cls)` never fails: it is `{}` with every object it fetches filed under its key, in fetch order. |
| StorageLaws.AllKeysNameTheirObjects | models/engine/db_storage.py:69-70 | Every key of `all()` is `ClassName.id` of the object under it, and parses back to that object's slot. |
| StorageLaws.AllUnknownIsEmpty | models/engine/db_storage.py:64 | A name or class outside the registry gives `{}`. There is no fallback to every kind. |
| StorageLaws.AllOneKind | models/engine/db_storage.py:64-66 | `all(State)` and `all("State")` both return exactly the query of that one kind. |
| StorageLaws.AllEveryKind | models/engine/db_storage.py:50-70 | `all()` lists every kind's query in class-map order: User, Place, State, City, Amenity, Review. It has one entry per fetched object. |
| StorageLaws.SaveKeepsQueries | models/engine/db_storage.py:78-80 | Every query and every `all` return the same before and after `save()`. |
| StorageLaws.ReloadShowsCommitted | models/engine/db_storage.py:87-92 | After `reload()` pending work is gone, and every query returns the committed table. |
| StorageLaws.NewSaveReloadRoundTrip | models/engine/db_storage.py:74-92 | An object passed to `new` and then `save` is in `all()` under its key after a later `reload`. |
| StorageLaws.NewDeleteSaveLeavesNoTrace | models/engine/db_storage.py:74-85 | Under the model's rule that deleting a pending object cancels its add, `new(obj)`, `delete(obj)` and then `save()` leave `obj`'s slot empty. Every other slot is committed as the session showed it. The program behaves this way only when a query flushes the add between `new` and `delete`. |
| StorageLaws.TestModeStartsEmpty | models/engine/db_storage.py:43-44 | In test mode, construction and then `reload` give empty tables, and `all()` is `{}`. |
| StorageLaws.TestModeScenario | models/engine/db_storage.py:26-92 | In test mode, construction, `reload`, `new(user)` and `save` make `all("User")` exactly `{"User.<id>": user}`. |
| StorageLaws.InitKeepsDataOutsideTest | models/engine/db_storage.py:42-44 | Outside test mode the committed data survives construction and `reload`. |
| TextRoutes.SpaceOut | web_flask/4-number_route.py:46 | `text.replace("_", " ")` keeps the length, turns each underscore into a space, leaves every other character in place, and leaves no underscore. |
| TextRoutes.SpaceOutFixes | web_flask/4-number_route.py:46 | Text without underscores passes through unchanged, and replacing twice is replacing once. |
| TextRoutes.SpaceOutRoundTrip | web_flask/4-number_route.py:46 | For URL text without spaces, turning spaces back into underscores recovers the text. |
| TextRoutes.CPage | web_flask/4-number_route.py:35-46 | `/c/<text>` is "C " followed by the text with underscores as spaces. Its length is the text's plus 2, and it holds no underscore. |
| TextRoutes.PythonPage | web_flask/4-number_route.py:49-64 | `/python/<text>` is "Python " followed by the text with underscores as spaces. Its length is the text's plus 7. Without text the default `is_cool` is used. |
| TextRoutes.PythonDefault | web_flask/4-number_route.py:49 | `/python/` shows "Python is cool". |
| TextRoutes.CaptionRecoversText | web_flask/3-python_route.py:45-51 | After its prefix, a C or Python page gives back URL text that had no spaces. |
| TextRoutes.Decimal | web_flask/4-number_route.py:77 | The rendering of `n` is a non-empty run of decimal digits with no leading zero. |
| TextRoutes.DecimalRoundTrip | web_flask/4-number_route.py:67-77 | Parsing the rendering of `n` gives back `n`. |
| TextRoutes.CanonicalRoundTrip | web_flask/4-number_route.py:67-77 | Rendering the value of a digit string with no leading zero gives that string back. |
| TextRoutes.NumberPage | web_flask/4-number_route.py:67-77 | `/number/<n>` ends with " is a number", and the text before that is the canonical decimal of `n`. |
| TextRoutes.NumberPageInjective | web_flask/4-number_route.py:77 | Distinct numbers give distinct pages. |
| TextRoutes.NumberRequest | web_flask/4-number_route.py:67 | The `<int:n>` rule matches exactly non-empty digit strings, and passes on their value. |
| TextRoutes.NumberLeadingZeros | web_flask/4-number_route.py:67-77 | `/number/007` is a request for 7 and shows "7 is a number". |
| TextRoutes.PythonApp | web_flask/3-python_route.py:14-51 | The python application answers every request but a number request. Its C and python pages start with their prefix, and no page it serves holds an underscore. |
| TextRoutes.NumberApp | web_flask/4-number_route.py:15-77 | The number application answers every request. A number page is the canonical decimal of the number, which parses back to it, followed by " is a number". |
| TextRoutes.NumberAppExtends | web_flask/3-python_route.py:14-51 | The number application answers every request the python application answers, with the same page. The only route it adds is `/number/<n>`. |
| TextRoutes.FixedPages | web_flask/4-number_route.py:15-49 | Both applications answer `/` with "Hello HBNB!", `/hbnb` with "HBNB", and `/python/` with "Python is cool". |
| NameOrder.NameLeTotal | web_flask/9-states.py:20-21 | Any two names are comparable by Python's string order. |
| NameOrder.NameLeTrans | web_flask/9-states.py:20-21 | Python's string order is transitive. |
| NameOrder.NameLeAntisym | web_flask/9-states.py:20-21 | Names ordered both ways are equal. |
| NameOrder.SortByName | web_flask/7-states_list.py:32 | The sorted list is a permutation of its input: same length, same multiset. |
| NameOrder.SortSorted | web_flask/7-states_list.py:32 | The sorted list is in non-decreasing name order. |
| NameOrder.SortStable | web_flask/7-states_list.py:32 | The sort is stable: the rows sharing a name keep their input order. |
| NameOrder.StableSortUnique | web_flask/7-states_list.py:32 | Two name-sorted lists that keep the same rows, in the same order, under every name are equal. |
| NameOrder.SortByNameIsStableSort | web_flask/9-states.py:20-21 | Any stable sort by name of a list, Python's `sorted` included, gives the insertion sort's result. |
| StatePages.SortedStates | web_flask/7-states_list.py:21-33 | The state list fails exactly when storage has no session. Otherwise it is sorted by name, stable, and a permutation of `all(State).values()`. |
| StatePages.SortedStatesContents | web_flask/9-states.py:17-22 | The states page lists exactly the states the session sees, and nothing of another kind. |
| StatePages.FirstWithId | web_flask/9-states.py:28-32 | No state is selected exactly when no value has the id. Otherwise the selected state has the id, and every value before it has another id. |
| StatePages.StateById | web_flask/9-states.py:28-32 | The loop of `states_id` returns the first value with the id, and `None` when there is none. |
| StatePages.StatePage | web_flask/9-states.py:25-32 | `/states/<id>` fails exactly when storage has no session. |
| StatePages.StatePageShowsSlot | web_flask/9-states.py:25-32 | `/states/<id>` shows exactly the state the session sees in slot `State.<id>`, and no state when that slot is empty. |

## Left out

- **SQLAlchemy and MySQL internals.** The connection string, the engine, `pool_pre_ping`, the scoped-session registry and thread-local sessions are left out. The database is a map of tables, and a session is its pending adds and deletes.
- **Row order.** A table's query order is modelled as its row order. Rows added through the session go after existing rows, or stay in the place of the row they replace. SQL gives no ordering guarantee without `ORDER BY`.
- **Duplicate primary keys.** A second, distinct object with an existing primary key replaces the row. SQLAlchemy would raise `IntegrityError` at flush.
- DBStorage.Delete: deleting an object that was only added, never flushed, cancels the pending add. SQLAlchemy raises for an instance that was never persisted.
- DBStorage.New: the model does not track whether a pending change has been flushed. Adding an object whose slot is marked for deletion always cancels the deletion and shows the object again. The program does so only when no query and no `save()` came between `delete(obj)` and `new(obj)`. Once the deletion has been flushed, by the autoflush of an `all()` query at models/engine/db_storage.py:66 or by `save()` at line 80, `session.add` at line 76 raises `InvalidRequestError` because the instance has been deleted, so `new(obj)` fails with a session in place.
- StorageLaws.NewDeleteSaveLeavesNoTrace: the law follows from the `DBStorage.Delete` deviation above. In the program, `new(obj)` followed directly by `delete(obj)` raises at line 85. The law holds of the program only when a query, which autoflushes the add, comes between the two calls.
- **Unmapped classes.** Objects of unmapped classes, such as `BaseModel` instances, never reach the session. `all` with such a class, or with an unknown name, selects nothing.
- **`close()`.** The teardown handlers of web_flask/7-states_list.py:36-48 and web_flask/9-states.py:11-14 call `storage.close()`, which `DBStorage` does not define. Neither the call nor a `close` operation is modelled.
- **No fallback or configuration checks.** `all` has no fallback from an unknown class to every kind, and missing MySQL settings are not checked. Neither exists in db_storage.py.
- DBStorage.All: requires `WellFormed`, the invariant of every state reachable from construction. The code relies on it without checking it.
- DBStorage.Save: requires `WellFormed`, for the same reason.
- **Flask plumbing.** Left out are:
  - URL routing and `strict_slashes`;
  - `render_template` and the HTML templates (the model returns the values handed to the template);
  - `app.run` and its host and port, including the mismatch between port 5001 and the docstring's 5000 in 4-number_route.py.
- **The `<int:n>` converter.** Only ASCII digits are modelled. Python's `\d` also accepts other Unicode decimal digits.
- TextRoutes.NumberRequest: every non-empty ASCII digit string is accepted, whatever its length. On Python versions with the integer-string conversion limit, `int()` in the converter raises `ValueError` for more than 4300 digits, so such a request ends in a server error and never reaches the handler at web_flask/4-number_route.py:77.
- TextRoutes.NumberApp: answers a request of more than 4300 digits with a number page, for the reason given for `TextRoutes.NumberRequest`.
- **Other applications and tests.** web_flask/0-hello_route.py and web_flask/1-hbnb_route.py are not part of this model; their two fixed pages are the ones modelled in `TextRoutes`. tests/test_models/test_city.py is not part of this model.
- **`FileStorage`.** The file-backed engine chosen when `HBNB_TYPE_STORAGE` is not `db` is not part of this model. The state pages are modelled over `DBStorage`.
- **Live objects.** `Obj` is an immutable value. SQLAlchemy tracks live instances: an attribute changed on a tracked object is committed by `save()` without another `new`, and later `all()` calls return the same, changed instance. In the model a row changes only when a changed value is passed to `new` again. Attribute tracking and object sharing between calls are not modelled.
- **Other columns.** Model classes keep only `id` and `name`. No operation modelled here reads any other column.
- **Concurrency.** Concurrent requests sharing one session are left out.

=== FILE: db_storage.dfy ===
/** The database storage engine `DBStorage` (models/engine/db_storage.py).

    The SQL database is a map from kind to that kind's table, a table being
    its rows in the order a query returns them; a missing entry is a table
    that does not exist. The SQLAlchemy session is abstract: the objects
    added since the last commit and the slots marked for deletion. Queries
    go through the session, so they see its pending changes (SQLAlchemy
    flushes before it queries); only `save` makes them durable. */
module DBStorage {
  import opened Wrappers
  import opened Registry
  import opened Identity
  import opened Rows
  import opened PyDict

  datatype Database = Database(tables: map<Kind, seq<Obj>>)

  /** Every table holds rows of its own kind, each primary key at most once. */
  predicate ValidDb(db: Database) {
    forall k :: k in db.tables ==> AllOfKind(db.tables[k], k) && DistinctRefs(db.tables[k])
  }

  /** Uncommitted work: objects passed to `new`, in order, and slots passed
      to `delete`. */
  datatype Session = Session(adds: seq<Obj>, deletes: set<Ref>)

  /** Each slot is pending at most once, and never both added and deleted. */
  predicate ValidSession(s: Session) {
    && DistinctRefs(s.adds)
    && forall i :: 0 <= i < |s.adds| ==> RefOf(s.adds[i]) !in s.deletes
  }

  /** A session with nothing pending. */
  const FreshSession: Session := Session([], {})

  /** The private `__engine` (here its database) and `__session`, which is
      `None` until the first `reload`. */
  datatype Engine = Engine(db: Database, session: Option<Session>)

  /** States reachable from construction: once a session exists, every
      registered table exists too. */
  predicate WellFormed(e: Engine) {
    && ValidDb(e.db)
    && (e.session.Some? ==> ValidSession(e.session.value) && forall k: Kind :: k in e.db.tables)
  }

  /** The exception a call raises: `None` has no attribute `query`, `add`,
      `commit` or `delete` while no session has been installed. */
  datatype StorageError = NoSession

  /** The Python class objects `all` can be handed. */
  datatype PyClass =
    | Registered(kind: Kind)          // one of the mapped model classes
    | Unregistered(className: string) // any other class, e.g. `BaseModel`

  /** The `cls` argument of `all`: `None`, a class, or a class name. */
  datatype ClsArg = NoClass | Class(c: PyClass) | ClassName(n: string)

  /** The test on line 64 for one entry of the class map. */
  predicate PairMatches(arg: ClsArg, entry: (string, Kind)) {
    arg.NoClass? || arg == Class(Registered(entry.1)) || arg == ClassName(entry.0)
  }

  /** Whether `all(arg)` asks for objects of kind `k`. */
  predicate Matches(arg: ClsArg, k: Kind) {
    arg.NoClass? || arg == Class(Registered(k)) || arg == ClassName(Name(k))
  }

  /** Whether `arg` selects any kind at all. */
  predicate SelectsSomeKind(arg: ClsArg) {
    || arg.NoClass?
    || (arg.Class? && arg.c.Registered?)
    || (arg.ClassName? && arg.n in Classes)
  }

  /** On the class map the line-64 test is exactly `Matches`. */
  lemma PairMatchesClassMap(arg: ClsArg, i: nat)
    requires i < |ClassMap|
    ensures PairMatches(arg, ClassMap[i]) <==> Matches(arg, ClassMap[i].1)
  {
    RegistriesAgree();
  }

  /** `SelectsSomeKind` says that some kind matches. */
  lemma SelectsSomeKindMeansMatch(arg: ClsArg)
    ensures SelectsSomeKind(arg) <==> exists k: Kind :: Matches(arg, k)
  {
    RegistriesAgree();
    if SelectsSomeKind(arg) {
      var k := if arg.ClassName? then Classes[arg.n] else if arg.Class? then arg.c.kind else User;
      assert Matches(arg, k);
    } else {
      forall k: Kind ensures !Matches(arg, k) {
        assert Name(k) in Classes;
      }
    }
  }

  /** The committed rows of kind `k` (none if the table does not exist). */
  function Table(db: Database, k: Kind): seq<Obj> {
    if k in db.tables then db.tables[k] else []
  }

  /** What a query through session `s` finds in slot `r`: nothing if the
      slot is marked for deletion, else a pending addition, else the
      committed row. */
  function Seen(db: Database, s: Session, r: Ref): Option<Obj> {
    if r in s.deletes then None
    else if Lookup(s.adds, r).Some? then Lookup(s.adds, r)
    else Lookup(Table(db, r.kind), r)
  }

  /** `session.query(cls).all()`: the pending changes are flushed into the
      table, and the resulting rows are returned. */
  function Query(db: Database, s: Session, k: Kind): (rows: seq<Obj>)
    requires ValidDb(db) && ValidSession(s)
    ensures AllOfKind(rows, k) && DistinctRefs(rows)
    ensures forall id :: Lookup(rows, Ref(k, id)) == Seen(db, s, Ref(k, id))
  {
    var t := Table(db, k);
    var adds := Select(s.adds, k);
    forall id ensures Lookup(adds, Ref(k, id)) == Lookup(s.adds, Ref(k, id)) {
      SelectLookup(s.adds, k, id);
    }
    assert DistinctRefs(t) && AllOfKind(t, k);
    var rows := UpsertAll(Without(t, s.deletes), adds);
    assert forall x :: x in rows ==> x.kind == k;
    rows
  }

  /** A query of kind `k` returns exactly the objects of that kind the
      session sees in their slots. */
  lemma QueryContents(db: Database, s: Session, k: Kind, o: Obj)
    requires ValidDb(db) && ValidSession(s)
    ensures o in Query(db, s, k) <==> o.kind == k && Seen(db, s, RefOf(o)) == Some(o)
  {
    var rows := Query(db, s, k);
    LookupFinds(rows, o);
    if o in rows {
      assert o.kind == k;
    }
  }

  // ---------------------------------------------------------------------
  // Construction and session lifecycle (lines 26-44, 74-92)
  // ---------------------------------------------------------------------

  /** `Base.metadata.drop_all`: every mapped table is gone, so every
      query of the dropped database finds nothing. */
  function DropAll(db: Database): (r: Database)
    ensures forall k: Kind :: k !in r.tables && Table(r, k) == []
    ensures ValidDb(r)
  {
    Database(map[])
  }

  /** `Base.metadata.create_all`: every registered table exists; tables
      that already existed keep their rows. */
  function CreateAll(db: Database): (r: Database)
    ensures forall k: Kind :: k in r.tables
    ensures forall k :: k in db.tables ==> r.tables[k] == db.tables[k]
    ensures forall k: Kind :: k !in db.tables ==> r.tables[k] == []
    ensures ValidDb(db) ==> ValidDb(r)
  {
    ClassMapListsEveryKindOnce();
    Database(map k | k in ClassMapKinds() :: Table(db, k))
  }

  /** `DBStorage()` with `HBNB_ENV` read from the environment (`None` when
      unset): the tables are dropped exactly when the mode is "test", and no
      session exists yet. */
  function Init(env: Option<string>, db: Database): (e: Engine)
    ensures e.session.None?
    ensures env == Some("test") ==> forall k: Kind :: k !in e.db.tables
    ensures env != Some("test") ==> e.db == db
    ensures ValidDb(db) ==> WellFormed(e)
  {
    Engine(if env == Some("test") then DropAll(db) else db, None)
  }

  /** `reload()`: create the missing tables and install a fresh session,
      abandoning whatever the previous session had pending. */
  function Reload(e: Engine): (r: Engine)
    ensures r.session == Some(FreshSession)
    ensures forall k: Kind :: k in r.db.tables
    ensures forall k :: k in e.db.tables ==> r.db.tables[k] == e.db.tables[k]
    ensures forall k: Kind :: k !in e.db.tables ==> r.db.tables[k] == []
    ensures ValidDb(e.db) ==> WellFormed(r)
  {
    Engine(CreateAll(e.db), Some(FreshSession))
  }

  /** `session.add(obj)`: `obj` becomes the pending content of its slot,
      cancelling a pending deletion of that slot. */
  function Stage(s: Session, o: Obj): (r: Session)
    ensures o in r.adds && r.deletes == s.deletes - {RefOf(o)}
    ensures forall x :: x in r.adds ==> x == o || x in s.adds
    ensures forall x :: x in s.adds && RefOf(x) != RefOf(o) ==> x in r.adds
    ensures ValidSession(s) ==> ValidSession(r)
  {
    var adds := Upsert(s.adds, o);
    assert Lookup(adds, RefOf(o)) == Some(o);
    assert forall i :: 0 <= i < |adds| ==> adds[i] in adds;
    Session(adds, s.deletes - {RefOf(o)})
  }

  /** `session.delete(obj)`: the slot of `obj` is marked for deletion, and
      a pending addition to it is dropped. */
  function Mark(s: Session, o: Obj): (r: Session)
    ensures RefOf(o) in r.deletes && r.deletes - {RefOf(o)} == s.deletes - {RefOf(o)}
    ensures forall x :: x in r.adds <==> x in s.adds && RefOf(x) != RefOf(o)
    ensures ValidSession(s) ==> ValidSession(r)
  {
    Session(Without(s.adds, {RefOf(o)}), s.deletes + {RefOf(o)})
  }

  /** `new(obj)`: the object is added to the session, nothing is committed,
      and queries through the session now find it in its slot and find every
      other slot as before. */
  function New(e: Engine, o: Obj): (r: Result<Engine, StorageError>)
    ensures r.Failure? <==> e.session.None?
    ensures r.Success? ==> r.value.db == e.db && r.value.session.Some?
    ensures r.Success? ==> o in r.value.session.value.adds
    ensures r.Success? ==>
      forall ref :: Seen(e.db, r.value.session.value, ref) ==
        if ref == RefOf(o) then Some(o) else Seen(e.db, e.session.value, ref)
    ensures r.Success? && WellFormed(e) ==> WellFormed(r.value)
  {
    match e.session
    case None => Failure(NoSession)
    case Some(s) => Success(Engine(e.db, Some(Stage(s, o))))
  }

  /** `delete(obj)`: with `None` nothing happens, even without a session;
      otherwise the object's slot is marked for deletion, queries through the
      session stop finding it, and every other slot is seen as before. */
  function Delete(e: Engine, obj: Option<Obj>): (r: Result<Engine, StorageError>)
    ensures obj.None? ==> r == Success(e)
    ensures r.Failure? <==> obj.Some? && e.session.None?
    ensures obj.Some? && r.Success? ==>
      && r.value.db == e.db && r.value.session.Some?
      && RefOf(obj.value) in r.value.session.value.deletes
      && forall ref :: Seen(e.db, r.value.session.value, ref) ==
           if ref == RefOf(obj.value) then None else Seen(e.db, e.session.value, ref)
    ensures r.Success? && WellFormed(e) ==> WellFormed(r.value)
  {
    match obj
    case None => Success(e)
    case Some(o) =>
      match e.session
      case None => Failure(NoSession)
      case Some(s) => Success(Engine(e.db, Some(Mark(s, o))))
  }

  /** The database after a commit of session `s`: no table is created or
      dropped, and in every existing table each slot durably holds what the
      session showed there, so a fresh session sees the same. */
  function Commit(db: Database, s: Session): (r: Database)
    requires ValidDb(db) && ValidSession(s)
    ensures r.tables.Keys == db.tables.Keys
    ensures ValidDb(r)
    ensures forall ref: Ref :: ref.kind in db.tables ==> Seen(r, FreshSession, ref) == Seen(db, s, ref)
  {
    var r := Database(map k | k in db.tables :: Query(db, s, k));
    assert forall k :: k in r.tables ==> r.tables[k] == Query(db, s, k);
    r
  }

  /** `save()`: the pending additions and deletions become committed and
      nothing is left pending; every slot of every table now holds what the
      session saw there before the commit. */
  function Save(e: Engine): (r: Result<Engine, StorageError>)
    requires WellFormed(e)
    ensures r.Failure? <==> e.session.None?
    ensures r.Success? ==> r.value.session == Some(FreshSession) && WellFormed(r.value)
    ensures r.Success? ==> r.value.db.tables.Keys == e.db.tables.Keys
    ensures r.Success? ==>
      forall ref :: Seen(r.value.db, FreshSession, ref) == Seen(e.db, e.session.value, ref)
  {
    match e.session
    case None => Failure(NoSession)
    case Some(s) =>
      Success(Engine(Commit(e.db, s), Some(FreshSession)))
  }

  // ---------------------------------------------------------------------
  // The query `all(cls)` (lines 46-72)
  // ---------------------------------------------------------------------

  /** The identity keys of `objs`, in order. */
  function KeysOf(objs: seq<Obj>): seq<string> {
    seq(|objs|, i requires 0 <= i < |objs| => Key(objs[i]))
  }

  /** Objects in distinct slots get distinct keys. */
  lemma DistinctKeys(objs: seq<Obj>)
    requires DistinctRefs(objs)
    ensures forall i, j :: 0 <= i < j < |objs| ==> Key(objs[i]) != Key(objs[j])
  {
    forall i, j | 0 <= i < j < |objs|
      ensures Key(objs[i]) != Key(objs[j])
    {
      KeyInjective(objs[i].kind, objs[i].id, objs[j].kind, objs[j].id);
    }
  }

  /** Lines 68-70: each object in turn is filed under its identity key.
      Afterwards the dictionary holds its old keys and the objects' keys,
      and no others. */
  function Populate(d: Dict<Obj>, objs: seq<Obj>): (r: Dict<Obj>)
    requires PyDict.Valid(d)
    ensures PyDict.Valid(r)
    ensures forall o :: o in objs ==> Key(o) in r.entries
    ensures forall key :: key in r.entries <==> key in d.entries || key in KeysOf(objs)
    ensures DistinctRefs(objs) ==> forall o :: o in objs ==> r.entries[Key(o)] == o
    ensures forall key :: key in d.entries && key !in KeysOf(objs) ==> r.entries[key] == d.entries[key]
  {
    var ks := KeysOf(objs);
    var r := SetAll(d, ks, objs);
    SetAllDomain(d, ks, objs);
    forall o | o in objs ensures Key(o) in ks {
      var i :| 0 <= i < |objs| && objs[i] == o;
      assert ks[i] == Key(o);
    }
    forall key | key in d.entries && key !in ks ensures r.entries[key] == d.entries[key] {
      SetAllKeeps(d, ks, objs, key);
    }
    StoresEach(d, objs);
    r
  }

  /** Objects in distinct slots have distinct keys, so none overwrites
      another: each ends up under its own key. */
  lemma StoresEach(d: Dict<Obj>, objs: seq<Obj>)
    requires PyDict.Valid(d)
    ensures DistinctRefs(objs) ==> forall o :: o in objs ==>
      Key(o) in SetAll(d, KeysOf(objs), objs).entries && SetAll(d, KeysOf(objs), objs).entries[Key(o)] == o
  {
    if DistinctRefs(objs) {
      DistinctKeys(objs);
      forall o | o in objs
        ensures Key(o) in SetAll(d, KeysOf(objs), objs).entries && SetAll(d, KeysOf(objs), objs).entries[Key(o)] == o
      {
        var i :| 0 <= i < |objs| && objs[i] == o;
        SetAllStores(d, KeysOf(objs), objs, i);
      }
    }
  }

  lemma PopulateConcat(d: Dict<Obj>, a: seq<Obj>, b: seq<Obj>)
    requires PyDict.Valid(d)
    ensures Populate(d, a + b) == Populate(Populate(d, a), b)
  {
    assert KeysOf(a + b) == KeysOf(a) + KeysOf(b);
    SetAllConcat(d, KeysOf(a), a, KeysOf(b), b);
  }

  /** What a query of each kind returns through session `s`. */
  function Snapshot(db: Database, s: Session): (rows: map<Kind, seq<Obj>>)
    requires ValidDb(db) && ValidSession(s)
    ensures forall k: Kind :: k in rows
  {
    ClassMapListsEveryKindOnce();
    map k | k in ClassMapKinds() :: Query(db, s, k)
  }

  /** The objects `all(arg)` collects, in order: for each entry of `pairs`
      that passes the line-64 test, the rows its query returns. */
  function FetchedFrom(rows: map<Kind, seq<Obj>>, pairs: seq<(string, Kind)>, arg: ClsArg): seq<Obj>
    decreases |pairs|
  {
    if |pairs| == 0 then []
    else
      (if PairMatches(arg, pairs[0]) && pairs[0].1 in rows then rows[pairs[0].1] else [])
      + FetchedFrom(rows, pairs[1..], arg)
  }

  /** Everything `all(arg)` fetches through session `s`. */
  function Fetched(db: Database, s: Session, arg: ClsArg): seq<Obj>
    requires ValidDb(db) && ValidSession(s)
  {
    FetchedFrom(Snapshot(db, s), ClassMap, arg)
  }

  /** Entries named after their kind, each kind at most once. */
  predicate NamedAfterKinds(pairs: seq<(string, Kind)>) {
    && (forall i :: 0 <= i < |pairs| ==> pairs[i].0 == Name(pairs[i].1))
    && (forall i, j :: 0 <= i < j < |pairs| ==> pairs[i].1 != pairs[j].1)
  }

  predicate Lists(pairs: seq<(string, Kind)>, k: Kind) {
    exists i :: 0 <= i < |pairs| && pairs[i].1 == k
  }

  lemma ListsTail(pairs: seq<(string, Kind)>, k: Kind)
    requires |pairs| > 0
    ensures Lists(pairs, k) <==> pairs[0].1 == k || Lists(pairs[1..], k)
  {
    if Lists(pairs, k) && pairs[0].1 != k {
      var i :| 0 <= i < |pairs| && pairs[i].1 == k;
      assert pairs[1..][i - 1].1 == k;
    }
    if Lists(pairs[1..], k) {
      var i :| 0 <= i < |pairs[1..]| && pairs[1..][i].1 == k;
      assert pairs[i + 1].1 == k;
    }
  }

  /** The fetched objects occupy distinct slots, and they are exactly the
      objects of listed, matching kinds that the session sees. */
  lemma {:induction false} FetchedFromContents(db: Database, s: Session, pairs: seq<(string, Kind)>, arg: ClsArg)
    requires ValidDb(db) && ValidSession(s) && NamedAfterKinds(pairs)
    ensures DistinctRefs(FetchedFrom(Snapshot(db, s), pairs, arg))
    ensures forall o :: o in FetchedFrom(Snapshot(db, s), pairs, arg) <==>
      Lists(pairs, o.kind) && Matches(arg, o.kind) && Seen(db, s, RefOf(o)) == Some(o)
    decreases |pairs|
  {
    if |pairs| > 0 {
      var k := pairs[0].1;
      var rest := pairs[1..];
      assert NamedAfterKinds(rest) by {
        forall i | 0 <= i < |rest| ensures rest[i] == pairs[i + 1] { }
      }
      FetchedFromContents(db, s, rest, arg);
      var rows := Snapshot(db, s);
      assert rows[k] == Query(db, s, k);
      var head := if PairMatches(arg, pairs[0]) then Query(db, s, k) else [];
      var tail := FetchedFrom(rows, rest, arg);
      assert FetchedFrom(rows, pairs, arg) == head + tail;
      assert PairMatches(arg, pairs[0]) <==> Matches(arg, k);
      assert !Lists(rest, k);
      forall o ensures o in head <==> o.kind == k && Matches(arg, k) && Seen(db, s, RefOf(o)) == Some(o) {
        QueryContents(db, s, k, o);
      }
      forall o ensures o in head + tail <==> Lists(pairs, o.kind) && Matches(arg, o.kind) && Seen(db, s, RefOf(o)) == Some(o) {
        ListsTail(pairs, o.kind);
      }
      DistinctConcat(head, tail);
    }
  }

  /** The class map names each entry after its kind and lists every kind
      exactly once. */
  lemma ClassMapShape()
    ensures NamedAfterKinds(ClassMap)
    ensures forall k: Kind :: Lists(ClassMap, k)
  {
    ClassMapListsEveryKindOnce();
    assert forall i :: 0 <= i < |ClassMap| ==> ClassMap[i].0 == Name(ClassMap[i].1) by {
      RegistriesAgree();
    }
    forall k: Kind ensures Lists(ClassMap, k) {
      assert k in ClassMapKinds();
    }
  }

  /** The contents of `all(arg)` through session `s`: exactly the objects of
      the kinds `arg` selects that the session sees, each slot once. */
  lemma FetchedContents(db: Database, s: Session, arg: ClsArg)
    requires ValidDb(db) && ValidSession(s)
    ensures DistinctRefs(Fetched(db, s, arg))
    ensures forall o :: o in Fetched(db, s, arg) <==> Matches(arg, o.kind) && Seen(db, s, RefOf(o)) == Some(o)
  {
    ClassMapShape();
    FetchedFromContents(db, s, ClassMap, arg);
  }

  /** Lines 63-70, with the accumulated dictionary `d`: walks the class map,
      and for each entry passing the line-64 test queries the session and
      files the rows. Without a session the first such query raises. */
  function Collect(db: Database, s: Option<Session>, pairs: seq<(string, Kind)>, arg: ClsArg, d: Dict<Obj>): (r: Result<Dict<Obj>, StorageError>)
    requires ValidDb(db) && (s.Some? ==> ValidSession(s.value)) && PyDict.Valid(d)
    ensures r.Success? ==> PyDict.Valid(r.value)
    ensures r.Failure? ==> s.None?
    ensures r.Success? ==> d.entries.Keys <= r.value.entries.Keys
    ensures r.Success? && s.None? ==> r.value == d
    decreases |pairs|
  {
    if |pairs| == 0 then Success(d)
    else if PairMatches(arg, pairs[0]) then
      match s
      case None => Failure(NoSession)
      case Some(ss) => Collect(db, s, pairs[1..], arg, Populate(d, Query(db, ss, pairs[0].1)))
    else Collect(db, s, pairs[1..], arg, d)
  }

  /** With a session, collecting is filing everything fetched, in order. */
  lemma {:induction false} CollectFiles(db: Database, s: Session, pairs: seq<(string, Kind)>, arg: ClsArg, d: Dict<Obj>)
    requires ValidDb(db) && ValidSession(s) && PyDict.Valid(d)
    ensures Collect(db, Some(s), pairs, arg, d) == Success(Populate(d, FetchedFrom(Snapshot(db, s), pairs, arg)))
    decreases |pairs|
  {
    if |pairs| > 0 {
      if PairMatches(arg, pairs[0]) {
        var q := Query(db, s, pairs[0].1);
        assert Snapshot(db, s)[pairs[0].1] == q;
        CollectFiles(db, s, pairs[1..], arg, Populate(d, q));
        PopulateConcat(d, q, FetchedFrom(Snapshot(db, s), pairs[1..], arg));
      } else {
        CollectFiles(db, s, pairs[1..], arg, d);
        assert FetchedFrom(Snapshot(db, s), pairs, arg) == FetchedFrom(Snapshot(db, s), pairs[1..], arg);
      }
    }
  }

  /** Without a session, collecting fails exactly when some entry matches,
      and otherwise leaves the dictionary as it was. */
  lemma {:induction false} CollectWithoutSession(db: Database, pairs: seq<(string, Kind)>, arg: ClsArg, d: Dict<Obj>)
    requires ValidDb(db) && PyDict.Valid(d)
    ensures Collect(db, None, pairs, arg, d) ==
      if exists i :: 0 <= i < |pairs| && PairMatches(arg, pairs[i]) then Failure(NoSession) else Success(d)
    decreases |pairs|
  {
    if |pairs| > 0 && !PairMatches(arg, pairs[0]) {
      CollectWithoutSession(db, pairs[1..], arg, d);
      if exists i :: 0 <= i < |pairs| && PairMatches(arg, pairs[i]) {
        var i :| 0 <= i < |pairs| && PairMatches(arg, pairs[i]);
        assert PairMatches(arg, pairs[1..][i - 1]);
      }
      if exists i :: 0 <= i < |pairs[1..]| && PairMatches(arg, pairs[1..][i]) {
        var i :| 0 <= i < |pairs[1..]| && PairMatches(arg, pairs[1..][i]);
        assert PairMatches(arg, pairs[i + 1]);
      }
    }
  }

  /** On the class map, without a session: `all` fails exactly when `arg`
      selects some kind, and otherwise returns `{}`. */
  lemma AllWithoutSession(db: Database, arg: ClsArg)
    requires ValidDb(db)
    ensures Collect(db, None, ClassMap, arg, Empty()) ==
      if SelectsSomeKind(arg) then Failure(NoSession) else Success(Empty())
  {
    CollectWithoutSession(db, ClassMap, arg, Empty());
    SelectsSomeKindMeansMatch(arg);
    if SelectsSomeKind(arg) {
      var k: Kind :| Matches(arg, k);
      ClassMapListsEveryKindOnce();
      assert k in ClassMapKinds();
      var i :| 0 <= i < |ClassMapKinds()| && ClassMapKinds()[i] == k;
      PairMatchesClassMap(arg, i);
    } else {
      forall i | 0 <= i < |ClassMap| ensures !PairMatches(arg, ClassMap[i]) {
        PairMatchesClassMap(arg, i);
      }
    }
  }

  /** Filing objects in distinct slots into `{}` overwrites nothing: it
      yields their keys in order and the objects themselves as values. */
  lemma PopulateEmpty(objs: seq<Obj>)
    requires DistinctRefs(objs)
    ensures Populate(Empty(), objs).keys == KeysOf(objs)
    ensures Values(Populate(Empty(), objs)) == objs
  {
    DistinctKeys(objs);
    SetAllFromEmpty(KeysOf(objs), objs);
  }

  /** On the class map, with a session: `all` files every fetched object
      under its own key, in fetch order. */
  lemma AllWithSession(db: Database, s: Session, arg: ClsArg)
    requires ValidDb(db) && ValidSession(s)
    ensures Collect(db, Some(s), ClassMap, arg, Empty()).Success?
    ensures var d := Collect(db, Some(s), ClassMap, arg, Empty()).value;
      d.keys == KeysOf(Fetched(db, s, arg)) && Values(d) == Fetched(db, s, arg)
  {
    CollectFiles(db, s, ClassMap, arg, Empty());
    FetchedContents(db, s, arg);
    PopulateEmpty(Fetched(db, s, arg));
  }

  /** The contract of `all`, for the walk over the class map. */
  lemma CollectClassMap(db: Database, s: Option<Session>, arg: ClsArg)
    requires ValidDb(db) && (s.Some? ==> ValidSession(s.value))
    ensures var r := Collect(db, s, ClassMap, arg, Empty());
      && (r.Failure? <==> s.None? && SelectsSomeKind(arg))
      && (r.Success? && s.None? ==> r.value == Empty())
      && (s.Some? ==>
        && r.Success?
        && r.value.keys == KeysOf(Fetched(db, s.value, arg))
        && Values(r.value) == Fetched(db, s.value, arg))
  {
    if s.None? {
      AllWithoutSession(db, arg);
    } else {
      AllWithSession(db, s.value, arg);
    }
  }

  /** `all(cls)`. It raises only when it has a kind to query and no session
      to query it with. Otherwise its keys are the identity keys of the
      fetched objects, one new entry per object in fetch order (no object
      overwrites another), and its values are those objects in that order. */
  function All(e: Engine, arg: ClsArg): (r: Result<Dict<Obj>, StorageError>)
    requires WellFormed(e)
    ensures r.Failure? <==> e.session.None? && SelectsSomeKind(arg)
    ensures r.Success? ==> PyDict.Valid(r.value)
    ensures r.Success? && e.session.None? ==> r.value == Empty()
    ensures e.session.Some? ==>
      && r.Success?
      && r.value.keys == KeysOf(Fetched(e.db, e.session.value, arg))
      && Values(r.value) == Fetched(e.db, e.session.value, arg)
  {
    CollectClassMap(e.db, e.session, arg);
    Collect(e.db, e.session, ClassMap, arg, Empty())
  }
}

=== FILE: identity.dfy ===
/** Stored objects and the identity key `ClassName.id` under which `all`
    files them (models/engine/db_storage.py). */
module Identity {
  import opened Wrappers
  import opened Registry

  /** A mapped model instance: its class, its primary key `id`, and the
      `name` attribute the state pages sort by. Other columns play no part
      in the modelled logic. */
  datatype Obj = Obj(kind: Kind, id: string, name: string)

  /** The row an object occupies: its table and its primary key. */
  datatype Ref = Ref(kind: Kind, id: string)

  function RefOf(o: Obj): Ref {
    Ref(o.kind, o.id)
  }

  /** `ClassName + "." + id`. */
  function KeyOf(k: Kind, id: string): string {
    Name(k) + "." + id
  }

  /** The key `all` computes for a fetched object. */
  function Key(o: Obj): string {
    KeyOf(o.kind, o.id)
  }

  /** Position of the first `.` in `s`, if any. */
  function FirstDot(s: string): (r: Option<nat>)
    ensures r.Some? ==> r.value < |s| && s[r.value] == '.' && '.' !in s[..r.value]
    ensures r.None? ==> '.' !in s
  {
    if |s| == 0 then None
    else if s[0] == '.' then Some(0)
    else match FirstDot(s[1..])
      case None => None
      case Some(i) => assert s[..i + 1] == [s[0]] + s[1..][..i]; Some(i + 1)
  }

  /** Reads a key back into the row it names: the text before the first
      `.` must be a registered class name, the rest is the id. */
  function ParseKey(key: string): Option<Ref> {
    match FirstDot(key)
    case None => None
    case Some(i) =>
      if key[..i] in Classes then Some(Ref(Classes[key[..i]], key[i + 1..])) else None
  }

  /** Parsing a key recovers the kind and the id it was built from. */
  lemma ParseKeyOf(k: Kind, id: string)
    ensures ParseKey(KeyOf(k, id)) == Some(Ref(k, id))
  {
    var n := Name(k);
    var key := KeyOf(k, id);
    assert key[|n|] == '.';
    assert key[..|n|] == n;
    assert key[|n| + 1..] == id;
    assert FirstDot(key) == Some(|n|);
    ClassesKnowName(k);
  }

  /** Two rows share a key exactly when they are the same row: objects of
      different kinds or with different ids never overwrite each other. */
  lemma KeyInjective(k1: Kind, id1: string, k2: Kind, id2: string)
    ensures KeyOf(k1, id1) == KeyOf(k2, id2) <==> k1 == k2 && id1 == id2
  {
    if KeyOf(k1, id1) == KeyOf(k2, id2) {
      ParseKeyOf(k1, id1);
      ParseKeyOf(k2, id2);
    }
  }
}

=== FILE: pydict.dfy ===
/** A Python `dict` with string keys: a finite map that also remembers the
    order in which keys were first inserted, which is the order `values()`
    iterates in. */
module PyDict {

  datatype Dict<V> = Dict(keys: seq<string>, entries: map<string, V>)

  /** The key order lists each key of the map exactly once. */
  predicate Valid<V>(d: Dict<V>) {
    && (forall i, j :: 0 <= i < j < |d.keys| ==> d.keys[i] != d.keys[j])
    && (forall i :: 0 <= i < |d.keys| ==> d.keys[i] in d.entries)
    && (forall key :: key in d.entries ==> key in d.keys)
  }

  /** `{}` */
  function Empty<V>(): (d: Dict<V>)
    ensures Valid(d) && |d.keys| == 0 && d.entries == map[]
  {
    Dict([], map[])
  }

  /** `d[key] = v`: an existing key keeps its position, a new one goes last. */
  function Set<V>(d: Dict<V>, key: string, v: V): (r: Dict<V>)
    requires Valid(d)
    ensures Valid(r)
    ensures r.entries == d.entries[key := v]
    ensures key in d.entries ==> r.keys == d.keys
    ensures key !in d.entries ==> r.keys == d.keys + [key]
  {
    if key in d.entries then Dict(d.keys, d.entries[key := v])
    else Dict(d.keys + [key], d.entries[key := v])
  }

  /** `d.values()`: one value per entry, so `len(d.values()) == len(d)`,
      every stored value among them, listed in iteration order. */
  function Values<V>(d: Dict<V>): (vs: seq<V>)
    requires Valid(d)
    ensures |vs| == |d.keys| == |d.entries|
    ensures forall key :: key in d.entries ==> d.entries[key] in vs
    ensures forall i :: 0 <= i < |vs| ==> vs[i] == d.entries[d.keys[i]]
  {
    Size(d);
    var vs := seq(|d.keys|, i requires 0 <= i < |d.keys| => d.entries[d.keys[i]]);
    forall key | key in d.entries ensures d.entries[key] in vs {
      var i :| 0 <= i < |d.keys| && d.keys[i] == key;
      assert vs[i] == d.entries[key];
    }
    vs
  }

  /** `for k, v in zip(ks, vs): d[k] = v`. */
  function SetAll<V>(d: Dict<V>, ks: seq<string>, vs: seq<V>): (r: Dict<V>)
    requires Valid(d) && |ks| == |vs|
    ensures Valid(r)
    decreases |ks|
  {
    if |ks| == 0 then d
    else SetAll(Set(d, ks[0], vs[0]), ks[1..], vs[1..])
  }

  /** After the assignments the dictionary holds exactly its old keys and
      the assigned ones. */
  lemma {:induction false} SetAllDomain<V>(d: Dict<V>, ks: seq<string>, vs: seq<V>)
    requires Valid(d) && |ks| == |vs|
    ensures forall key :: key in SetAll(d, ks, vs).entries <==> key in d.entries || key in ks
    decreases |ks|
  {
    if |ks| > 0 {
      SetAllDomain(Set(d, ks[0], vs[0]), ks[1..], vs[1..]);
      assert forall key :: key in ks <==> key == ks[0] || key in ks[1..] by {
        assert ks == [ks[0]] + ks[1..];
      }
    }
  }

  /** No key occurs twice in `ks`, and none is already in `d`. */
  predicate AllNew<V>(d: Dict<V>, ks: seq<string>) {
    && (forall i, j :: 0 <= i < j < |ks| ==> ks[i] != ks[j])
    && (forall i :: 0 <= i < |ks| ==> ks[i] !in d.entries)
  }

  lemma AllNewStep<V>(d: Dict<V>, ks: seq<string>, v: V)
    requires Valid(d) && AllNew(d, ks) && |ks| > 0
    ensures AllNew(Set(d, ks[0], v), ks[1..])
  {
    var d' := Set(d, ks[0], v);
    forall i | 0 <= i < |ks[1..]| ensures ks[1..][i] !in d'.entries {
      assert ks[1..][i] == ks[i + 1];
    }
    forall i, j | 0 <= i < j < |ks[1..]| ensures ks[1..][i] != ks[1..][j] {
      assert ks[1..][i] == ks[i + 1] && ks[1..][j] == ks[j + 1];
    }
  }

  /** Assigning fresh keys appends them, in order, to the key order. */
  lemma {:induction false} SetAllKeys<V>(d: Dict<V>, ks: seq<string>, vs: seq<V>)
    requires Valid(d) && |ks| == |vs| && AllNew(d, ks)
    ensures SetAll(d, ks, vs).keys == d.keys + ks
    decreases |ks|
  {
    if |ks| == 0 {
      assert d.keys + ks == d.keys;
    } else {
      var d' := Set(d, ks[0], vs[0]);
      AllNewStep(d, ks, vs[0]);
      SetAllKeys(d', ks[1..], vs[1..]);
      ConsAfter(d.keys, ks);
    }
  }

  lemma ConsAfter<T>(a: seq<T>, b: seq<T>)
    requires |b| > 0
    ensures a + [b[0]] + b[1..] == a + b
  {
    assert [b[0]] + b[1..] == b;
  }

  /** Assignments to other keys leave an entry alone. */
  lemma {:induction false} SetAllKeeps<V>(d: Dict<V>, ks: seq<string>, vs: seq<V>, key: string)
    requires Valid(d) && |ks| == |vs| && key in d.entries && key !in ks
    ensures key in SetAll(d, ks, vs).entries && SetAll(d, ks, vs).entries[key] == d.entries[key]
    decreases |ks|
  {
    if |ks| > 0 {
      assert key != ks[0] && key !in ks[1..];
      SetAllKeeps(Set(d, ks[0], vs[0]), ks[1..], vs[1..], key);
    }
  }

  /** Assigning distinct keys stores each value under its own key,
      whatever the dictionary held before. */
  lemma {:induction false} SetAllStores<V>(d: Dict<V>, ks: seq<string>, vs: seq<V>, i: nat)
    requires Valid(d) && |ks| == |vs| && i < |ks|
    requires forall a, b :: 0 <= a < b < |ks| ==> ks[a] != ks[b]
    ensures ks[i] in SetAll(d, ks, vs).entries && SetAll(d, ks, vs).entries[ks[i]] == vs[i]
    decreases |ks|
  {
    var d' := Set(d, ks[0], vs[0]);
    if i == 0 {
      assert ks[0] !in ks[1..];
      SetAllKeeps(d', ks[1..], vs[1..], ks[0]);
    } else {
      assert ks[i] == ks[1..][i - 1] && vs[i] == vs[1..][i - 1];
      SetAllStores(d', ks[1..], vs[1..], i - 1);
    }
  }

  /** Filling `{}` with distinct keys yields those keys in order and the
      values in the same order. */
  lemma SetAllFromEmpty<V>(ks: seq<string>, vs: seq<V>)
    requires |ks| == |vs| && forall i, j :: 0 <= i < j < |ks| ==> ks[i] != ks[j]
    ensures SetAll(Empty(), ks, vs).keys == ks
    ensures Values(SetAll(Empty(), ks, vs)) == vs
  {
    var d := SetAll(Empty(), ks, vs);
    SetAllKeys(Empty(), ks, vs);
    forall i | 0 <= i < |vs| ensures Values(d)[i] == vs[i] {
      SetAllStores(Empty(), ks, vs, i);
    }
  }

  /** Assigning two batches is assigning their concatenation. */
  lemma {:induction false} SetAllConcat<V>(d: Dict<V>, ks1: seq<string>, vs1: seq<V>, ks2: seq<string>, vs2: seq<V>)
    requires Valid(d) && |ks1| == |vs1| && |ks2| == |vs2|
    ensures SetAll(d, ks1 + ks2, vs1 + vs2) == SetAll(SetAll(d, ks1, vs1), ks2, vs2)
    decreases |ks1|
  {
    if |ks1| == 0 {
      assert ks1 + ks2 == ks2 && vs1 + vs2 == vs2;
    } else {
      assert (ks1 + ks2)[1..] == ks1[1..] + ks2 && (vs1 + vs2)[1..] == vs1[1..] + vs2;
      SetAllConcat(Set(d, ks1[0], vs1[0]), ks1[1..], vs1[1..], ks2, vs2);
    }
  }

  /** A sequence without repeats has as many distinct elements as entries. */
  lemma {:induction false} DistinctCount(ks: seq<string>)
    requires forall i, j :: 0 <= i < j < |ks| ==> ks[i] != ks[j]
    ensures |set k | k in ks| == |ks|
    decreases |ks|
  {
    if |ks| > 0 {
      var init := ks[..|ks| - 1];
      var last := ks[|ks| - 1];
      DistinctCount(init);
      assert (set k | k in ks) == (set k | k in init) + {last};
      assert last !in init;
    }
  }

  /** `len(d)`: a valid dictionary has one entry per key in its order. */
  lemma Size<V>(d: Dict<V>)
    requires Valid(d)
    ensures |d.entries| == |d.keys|
  {
    DistinctCount(d.keys);
    assert d.entries.Keys == set k | k in d.keys;
  }

  /** A valid dictionary with one key and one value is that one entry. */
  lemma Single<V>(d: Dict<V>, key: string, v: V)
    requires Valid(d) && d.keys == [key] && Values(d) == [v]
    ensures d == Dict([key], map[key := v])
  {
    assert d.keys[0] in d.entries && d.entries[key] == Values(d)[0];
  }

  /** A valid dictionary without keys is `{}`. */
  lemma NoKeys<V>(d: Dict<V>)
    requires Valid(d) && |d.keys| == 0
    ensures d == Empty()
  {
    assert d.keys == [];
  }
}

=== FILE: registry.dfy ===
/** The closed set of entity kinds that the storage engine knows about:
    the module-level `classes` registry and the class map that `all`
    walks (models/engine/db_storage.py). */
module Registry {

  /** One constructor per mapped model class. */
  datatype Kind = User | State | City | Amenity | Place | Review

  /** The Python class name of a kind, as `obj.__class__.__name__` reports it.
      No name is empty and none contains the key separator `.`. */
  function Name(k: Kind): (n: string)
    ensures |n| > 0 && '.' !in n
  {
    match k
    case User => "User"
    case State => "State"
    case City => "City"
    case Amenity => "Amenity"
    case Place => "Place"
    case Review => "Review"
  }

  /** The module-level `classes` dictionary. */
  const Classes: map<string, Kind> :=
    map["User" := User, "State" := State, "City" := City,
        "Amenity" := Amenity, "Place" := Place, "Review" := Review]

  /** The `class_map` that `all` iterates over, in its declaration order. */
  const ClassMap: seq<(string, Kind)> :=
    [("User", User), ("Place", Place), ("State", State),
     ("City", City), ("Amenity", Amenity), ("Review", Review)]

  /** Distinct kinds have distinct class names. */
  lemma NameInjective(k1: Kind, k2: Kind)
    ensures Name(k1) == Name(k2) <==> k1 == k2
  {
  }

  /** `classes` maps every kind's name back to that kind. */
  lemma ClassesKnowName(k: Kind)
    ensures Name(k) in Classes && Classes[Name(k)] == k
  {
    match k
    case User =>
    case State =>
    case City =>
    case Amenity =>
    case Place =>
    case Review =>
  }

  /** The kinds of the class map, in iteration order. */
  function ClassMapKinds(): seq<Kind> {
    seq(|ClassMap|, i requires 0 <= i < |ClassMap| => ClassMap[i].1)
  }

  /** Both registries list exactly the same six class names, each bound to
      the kind of that name. */
  lemma RegistriesAgree()
    ensures Classes.Keys == set i | 0 <= i < |ClassMap| :: ClassMap[i].0
    ensures forall i :: 0 <= i < |ClassMap| ==> Classes[ClassMap[i].0] == ClassMap[i].1
    ensures forall n :: n in Classes ==> Name(Classes[n]) == n
    ensures forall i :: 0 <= i < |ClassMap| ==> Name(ClassMap[i].1) == ClassMap[i].0
  {
    var names := set i | 0 <= i < |ClassMap| :: ClassMap[i].0;
    assert ClassMap[0].0 in names && ClassMap[1].0 in names && ClassMap[2].0 in names;
    assert ClassMap[3].0 in names && ClassMap[4].0 in names && ClassMap[5].0 in names;
  }

  /** The class map lists every kind, and each kind only once. */
  lemma ClassMapListsEveryKindOnce()
    ensures forall k: Kind :: k in ClassMapKinds()
    ensures forall i, j :: 0 <= i < j < |ClassMapKinds()| ==> ClassMapKinds()[i] != ClassMapKinds()[j]
  {
    var ks := ClassMapKinds();
    assert ks == [User, Place, State, City, Amenity, Review];
    forall k: Kind
      ensures k in ks
    {
      match k
      case User => assert ks[0] == k;
      case Place => assert ks[1] == k;
      case State => assert ks[2] == k;
      case City => assert ks[3] == k;
      case Amenity => assert ks[4] == k;
      case Review => assert ks[5] == k;
    }
  }
}

=== FILE: rows.dfy ===
/** Ordered collections of rows keyed by their `Ref`: a table's contents in
    the order a query returns them, and a session's pending additions in the
    order they were added. */
module Rows {
  import opened Wrappers
  import opened Registry
  import opened Identity

  /** No two rows occupy the same (kind, id) slot: the primary-key constraint. */
  predicate DistinctRefs(t: seq<Obj>) {
    forall i, j :: 0 <= i < j < |t| ==> RefOf(t[i]) != RefOf(t[j])
  }

  /** Every row belongs to the table of kind `k`. */
  predicate AllOfKind(t: seq<Obj>, k: Kind) {
    forall i :: 0 <= i < |t| ==> t[i].kind == k
  }

  lemma DistinctTail(t: seq<Obj>)
    requires |t| > 0 && DistinctRefs(t)
    ensures DistinctRefs(t[1..])
    ensures forall x :: x in t[1..] ==> RefOf(x) != RefOf(t[0])
  {
    forall i, j | 0 <= i < j < |t[1..]|
      ensures RefOf(t[1..][i]) != RefOf(t[1..][j])
    {
      assert t[1..][i] == t[i + 1] && t[1..][j] == t[j + 1];
    }
  }

  /** The first row occupying slot `r`, if any. */
  function Lookup(t: seq<Obj>, r: Ref): (found: Option<Obj>)
    ensures found.Some? ==> found.value in t && RefOf(found.value) == r
    ensures found.None? ==> forall i :: 0 <= i < |t| ==> RefOf(t[i]) != r
  {
    if |t| == 0 then None
    else if RefOf(t[0]) == r then Some(t[0])
    else Lookup(t[1..], r)
  }

  /** Under the primary-key constraint a row is in the collection exactly
      when looking up its slot finds it. */
  lemma {:induction false} LookupFinds(t: seq<Obj>, o: Obj)
    requires DistinctRefs(t)
    ensures o in t <==> Lookup(t, RefOf(o)) == Some(o)
  {
    if |t| > 0 {
      if RefOf(t[0]) == RefOf(o) {
        DistinctTail(t);
        assert o in t ==> o == t[0];
      } else {
        DistinctTail(t);
        LookupFinds(t[1..], o);
        assert o in t <==> o in t[1..];
      }
    }
  }

  /** Stores `o` in its slot: an existing row there is replaced in place,
      otherwise `o` goes at the end. Other slots are untouched. */
  function Upsert(t: seq<Obj>, o: Obj): (res: seq<Obj>)
    ensures forall r :: Lookup(res, r) == if r == RefOf(o) then Some(o) else Lookup(t, r)
    ensures forall x :: x in res ==> x == o || x in t
    ensures forall x :: x in t && RefOf(x) != RefOf(o) ==> x in res
    ensures DistinctRefs(t) ==> DistinctRefs(res)
  {
    if |t| == 0 then [o]
    else if RefOf(t[0]) == RefOf(o) then
      (if DistinctRefs(t) then DistinctTail(t); assert DistinctRefs([o] + t[1..]); [o] + t[1..]
       else [o] + t[1..])
    else
      var rest := Upsert(t[1..], o);
      assert forall x :: x in t[1..] ==> x in t;
      if DistinctRefs(t) then
        DistinctTail(t);
        assert DistinctRefs([t[0]] + rest);
        [t[0]] + rest
      else
        [t[0]] + rest
  }

  /** Drops every row whose slot is in `dels`, keeping the order of the rest. */
  function Without(t: seq<Obj>, dels: set<Ref>): (res: seq<Obj>)
    ensures forall x :: x in res <==> x in t && RefOf(x) !in dels
    ensures forall r :: Lookup(res, r) == if r in dels then None else Lookup(t, r)
    ensures DistinctRefs(t) ==> DistinctRefs(res)
  {
    if |t| == 0 then []
    else
      var rest := Without(t[1..], dels);
      assert forall x :: x in t <==> x == t[0] || x in t[1..];
      if RefOf(t[0]) in dels then
        (if DistinctRefs(t) then DistinctTail(t); rest else rest)
      else
        (if DistinctRefs(t) then DistinctTail(t); assert DistinctRefs([t[0]] + rest); [t[0]] + rest
         else [t[0]] + rest)
  }

  /** Stores each of `adds` in turn, as a flush of pending additions does. */
  function UpsertAll(t: seq<Obj>, adds: seq<Obj>): (res: seq<Obj>)
    ensures DistinctRefs(adds) ==>
      forall r :: Lookup(res, r) == if Lookup(adds, r).Some? then Lookup(adds, r) else Lookup(t, r)
    ensures forall x :: x in res ==> x in t || x in adds
    ensures DistinctRefs(t) ==> DistinctRefs(res)
    decreases |adds|
  {
    if |adds| == 0 then t
    else
      assert forall x :: x in adds[1..] ==> x in adds;
      if DistinctRefs(adds) then DistinctTail(adds); UpsertAll(Upsert(t, adds[0]), adds[1..])
      else UpsertAll(Upsert(t, adds[0]), adds[1..])
  }

  /** The rows of kind `k`, in their original order. */
  function Select(s: seq<Obj>, k: Kind): (res: seq<Obj>)
    ensures forall x :: x in res <==> x in s && x.kind == k
    ensures AllOfKind(res, k)
    ensures DistinctRefs(s) ==> DistinctRefs(res)
  {
    if |s| == 0 then []
    else
      var rest := Select(s[1..], k);
      assert forall x :: x in s <==> x == s[0] || x in s[1..];
      if s[0].kind != k then
        (if DistinctRefs(s) then DistinctTail(s); rest else rest)
      else
        (if DistinctRefs(s) then DistinctTail(s); assert DistinctRefs([s[0]] + rest); [s[0]] + rest
         else [s[0]] + rest)
  }

  /** Selecting a kind does not change what is found in that kind's slots. */
  lemma {:induction false} SelectLookup(s: seq<Obj>, k: Kind, id: string)
    ensures Lookup(Select(s, k), Ref(k, id)) == Lookup(s, Ref(k, id))
  {
    if |s| > 0 {
      SelectLookup(s[1..], k, id);
      if s[0].kind == k {
        assert ([s[0]] + Select(s[1..], k))[1..] == Select(s[1..], k);
      }
    }
  }

  /** Joining two collections keeps slots distinct when no slot is in both. */
  lemma DistinctConcat(a: seq<Obj>, b: seq<Obj>)
    requires DistinctRefs(a) && DistinctRefs(b)
    requires forall x, y :: x in a && y in b ==> RefOf(x) != RefOf(y)
    ensures DistinctRefs(a + b)
  {
    forall i, j | 0 <= i < j < |a + b|
      ensures RefOf((a + b)[i]) != RefOf((a + b)[j])
    {
      if i < |a| && j >= |a| {
        assert (a + b)[i] in a && (a + b)[j] == b[j - |a|];
      }
    }
  }
}

=== FILE: states.dfy ===
/** Python's ordering of `str` values and its stable `sorted`, specialised
    to the key the state pages sort by (`key=lambda state: state.name`). */
module NameOrder {
  import opened Identity

  /** `a <= b` on Python strings: code point by code point, and a proper
      prefix comes first. */
  predicate NameLe(a: string, b: string)
    decreases |a|
  {
    if |a| == 0 then true
    else if |b| == 0 then false
    else if a[0] != b[0] then a[0] < b[0]
    else NameLe(a[1..], b[1..])
  }

  lemma {:induction false} NameLeRefl(a: string)
    ensures NameLe(a, a)
    decreases |a|
  {
    if |a| > 0 {
      NameLeRefl(a[1..]);
    }
  }

  lemma {:induction false} NameLeTotal(a: string, b: string)
    ensures NameLe(a, b) || NameLe(b, a)
    decreases |a|
  {
    if |a| > 0 && |b| > 0 && a[0] == b[0] {
      NameLeTotal(a[1..], b[1..]);
    }
  }

  lemma {:induction false} NameLeAntisym(a: string, b: string)
    requires NameLe(a, b) && NameLe(b, a)
    ensures a == b
    decreases |a|
  {
    if |a| > 0 {
      NameLeAntisym(a[1..], b[1..]);
      assert a == [a[0]] + a[1..] && b == [b[0]] + b[1..];
    }
  }

  lemma {:induction false} NameLeTrans(a: string, b: string, c: string)
    requires NameLe(a, b) && NameLe(b, c)
    ensures NameLe(a, c)
    decreases |a|
  {
    if |a| > 0 && a[0] == b[0] && b[0] == c[0] {
      NameLeTrans(a[1..], b[1..], c[1..]);
    }
  }

  /** Every pair of rows, in order, is in name order. */
  predicate SortedByName(s: seq<Obj>) {
    forall i, j :: 0 <= i < j < |s| ==> NameLe(s[i].name, s[j].name)
  }

  /** The rows named `n`, in their order in `s`. A sort is stable exactly
      when it keeps this subsequence for every name. */
  function Named(s: seq<Obj>, n: string): (r: seq<Obj>)
    ensures forall x :: x in r <==> x in s && x.name == n
    decreases |s|
  {
    if |s| == 0 then []
    else (if s[0].name == n then [s[0]] else []) + Named(s[1..], n)
  }

  lemma NamedCons(y: Obj, rest: seq<Obj>, n: string)
    ensures Named([y] + rest, n) == (if y.name == n then [y] else []) + Named(rest, n)
  {
    assert ([y] + rest)[1..] == rest;
  }

  /** Places `x` before the first row whose name is not below its own. */
  function Insert(x: Obj, t: seq<Obj>): (r: seq<Obj>)
    ensures |r| == |t| + 1
    ensures multiset(r) == multiset(t) + multiset{x}
    decreases |t|
  {
    if |t| == 0 then [x]
    else if NameLe(x.name, t[0].name) then [x] + t
    else
      assert t == [t[0]] + t[1..];
      [t[0]] + Insert(x, t[1..])
  }

  /** `sorted(s, key=lambda o: o.name)`, as an insertion sort. */
  function SortByName(s: seq<Obj>): (r: seq<Obj>)
    ensures |r| == |s|
    ensures multiset(r) == multiset(s)
    decreases |s|
  {
    if |s| == 0 then []
    else
      assert s == [s[0]] + s[1..];
      Insert(s[0], SortByName(s[1..]))
  }

  lemma {:induction false} InsertSorted(x: Obj, t: seq<Obj>)
    requires SortedByName(t)
    ensures SortedByName(Insert(x, t))
    decreases |t|
  {
    if |t| > 0 {
      if NameLe(x.name, t[0].name) {
        forall j | 0 <= j < |t| ensures NameLe(x.name, t[j].name) {
          if j > 0 {
            NameLeTrans(x.name, t[0].name, t[j].name);
          }
        }
        ConsSorted(x, t);
      } else {
        NameLeTotal(x.name, t[0].name);
        SortedTail(t);
        InsertSorted(x, t[1..]);
        InsertAbove(x, t);
        ConsSorted(t[0], Insert(x, t[1..]));
      }
    }
  }

  /** A row below every row of a sorted list can go in front of it. */
  lemma ConsSorted(h: Obj, rest: seq<Obj>)
    requires SortedByName(rest)
    requires forall j :: 0 <= j < |rest| ==> NameLe(h.name, rest[j].name)
    ensures SortedByName([h] + rest)
  {
    var r := [h] + rest;
    forall i, j | 0 <= i < j < |r| ensures NameLe(r[i].name, r[j].name) {
      assert r[j] == rest[j - 1];
      if i > 0 {
        assert r[i] == rest[i - 1];
      }
    }
  }

  /** When `x` goes after the head, the head stays below everything after it. */
  lemma InsertAbove(x: Obj, t: seq<Obj>)
    requires SortedByName(t) && |t| > 0 && NameLe(t[0].name, x.name)
    ensures forall j :: 0 <= j < |Insert(x, t[1..])| ==> NameLe(t[0].name, Insert(x, t[1..])[j].name)
  {
    var rest := Insert(x, t[1..]);
    forall j | 0 <= j < |rest| ensures NameLe(t[0].name, rest[j].name) {
      assert rest[j] in multiset(rest);
      assert rest[j] == x || rest[j] in multiset(t[1..]);
      if rest[j] != x {
        var k :| 0 <= k < |t[1..]| && t[1..][k] == rest[j];
        assert t[k + 1] == rest[j];
      }
    }
  }

  /** Inserting `x` puts it ahead of every row sharing its name, and
      leaves the order of the other rows alone. */
  lemma {:induction false} InsertNamed(x: Obj, t: seq<Obj>, n: string)
    ensures Named(Insert(x, t), n) == (if x.name == n then [x] else []) + Named(t, n)
    decreases |t|
  {
    if |t| == 0 {
      NamedCons(x, [], n);
    } else if NameLe(x.name, t[0].name) {
      NamedCons(x, t, n);
    } else {
      InsertNamed(x, t[1..], n);
      NameLeRefl(x.name);
      NamedPast(x, t[0], Insert(x, t[1..]), t[1..], n);
      Split(t);
    }
  }

  /** A row named differently from `x` can go in front on both sides of
      the equation `InsertNamed` proves. */
  lemma NamedPast(x: Obj, y: Obj, rest: seq<Obj>, t: seq<Obj>, n: string)
    requires x.name != y.name
    requires Named(rest, n) == (if x.name == n then [x] else []) + Named(t, n)
    ensures Named([y] + rest, n) == (if x.name == n then [x] else []) + Named([y] + t, n)
  {
    var tail := Named(t, n);
    var mine: seq<Obj> := if x.name == n then [x] else [];
    var head: seq<Obj> := if y.name == n then [y] else [];
    NamedCons(y, rest, n);
    NamedCons(y, t, n);
    if x.name == n {
      assert head == [] && [] + (mine + tail) == mine + tail && [] + tail == tail;
    } else {
      assert mine == [] && [] + tail == tail && [] + (head + tail) == head + tail;
    }
  }

  lemma {:induction false} SortSorted(s: seq<Obj>)
    ensures SortedByName(SortByName(s))
    decreases |s|
  {
    if |s| > 0 {
      SortSorted(s[1..]);
      InsertSorted(s[0], SortByName(s[1..]));
    }
  }

  /** The sort is stable: rows with equal names keep their order. */
  lemma {:induction false} SortStable(s: seq<Obj>, n: string)
    ensures Named(SortByName(s), n) == Named(s, n)
    decreases |s|
  {
    if |s| > 0 {
      SortStable(s[1..], n);
      InsertNamed(s[0], SortByName(s[1..]), n);
      NamedCons(s[0], s[1..], n);
      assert [s[0]] + s[1..] == s;
    }
  }

  /** The first row of a sequence leads the rows sharing its name. */
  lemma NamedHead(r: seq<Obj>)
    ensures |r| > 0 ==> Named(r, r[0].name) == [r[0]] + Named(r[1..], r[0].name)
  {
  }

  /** In a name-sorted sequence the first row's name is below every name. */
  lemma SortedHeadLeast(r: seq<Obj>, x: Obj)
    requires SortedByName(r) && x in r
    ensures NameLe(r[0].name, x.name)
  {
    var j :| 0 <= j < |r| && r[j] == x;
    if j == 0 {
      NameLeRefl(x.name);
    }
  }

  lemma SortedTail(r: seq<Obj>)
    requires SortedByName(r) && |r| > 0
    ensures SortedByName(r[1..])
  {
    forall i, j | 0 <= i < j < |r[1..]| ensures NameLe(r[1..][i].name, r[1..][j].name) {
      assert r[1..][i] == r[i + 1] && r[1..][j] == r[j + 1];
    }
  }

  lemma Split<T>(r: seq<T>)
    requires |r| > 0
    ensures [r[0]] + r[1..] == r
  {
  }

  lemma CancelPrefix<T>(p: seq<T>, a: seq<T>, b: seq<T>)
    requires p + a == p + b
    ensures a == b
  {
    assert a == (p + a)[|p|..];
    assert b == (p + b)[|p|..];
  }

  /** Sequences with the same first row that keep the same rows under
      every name still do so without that row. */
  lemma NamedTails(r1: seq<Obj>, r2: seq<Obj>)
    requires |r1| > 0 && |r2| > 0 && r1[0] == r2[0]
    requires forall n :: Named(r1, n) == Named(r2, n)
    ensures forall n :: Named(r1[1..], n) == Named(r2[1..], n)
  {
    forall n ensures Named(r1[1..], n) == Named(r2[1..], n) {
      Split(r1);
      Split(r2);
      NamedCons(r1[0], r1[1..], n);
      NamedCons(r2[0], r2[1..], n);
      CancelPrefix(if r1[0].name == n then [r1[0]] else [], Named(r1[1..], n), Named(r2[1..], n));
    }
  }

  /** Sorting by name is determined by sortedness and stability: two
      name-sorted sequences that keep the same rows, in the same order,
      under every name are equal. So any stable sort, Python's included,
      returns what `SortByName` returns. */
  lemma {:induction false} StableSortUnique(r1: seq<Obj>, r2: seq<Obj>)
    requires SortedByName(r1) && SortedByName(r2)
    requires forall n :: Named(r1, n) == Named(r2, n)
    ensures r1 == r2
    decreases |r1|
  {
    SameHead(r1, r2);
    if |r1| > 0 {
      NamedTails(r1, r2);
      SortedTail(r1);
      SortedTail(r2);
      StableSortUnique(r1[1..], r2[1..]);
      Split(r1);
      Split(r2);
    }
  }

  /** Two name-sorted sequences that keep the same rows under every name
      are empty together, and otherwise start with the same row. */
  lemma SameHead(r1: seq<Obj>, r2: seq<Obj>)
    requires SortedByName(r1) && SortedByName(r2)
    requires forall n :: Named(r1, n) == Named(r2, n)
    ensures |r1| > 0 <==> |r2| > 0
    ensures |r1| > 0 && |r2| > 0 ==> r1[0] == r2[0]
  {
    NonEmptyTogether(r1, r2);
    NonEmptyTogether(r2, r1);
    if |r1| > 0 && |r2| > 0 {
      HeadsMeet(r1, r2);
    }
  }

  lemma NonEmptyTogether(r1: seq<Obj>, r2: seq<Obj>)
    requires forall n :: Named(r1, n) == Named(r2, n)
    ensures |r1| > 0 ==> |r2| > 0
  {
    if |r1| > 0 {
      NamedHead(r1);
      assert r1[0] in Named(r2, r1[0].name);
    }
  }

  /** The heads of two name-sorted sequences that agree on the rows named
      like either head are the same row. */
  lemma HeadsMeet(r1: seq<Obj>, r2: seq<Obj>)
    requires SortedByName(r1) && SortedByName(r2) && |r1| > 0 && |r2| > 0
    requires Named(r1, r1[0].name) == Named(r2, r1[0].name)
    requires Named(r1, r2[0].name) == Named(r2, r2[0].name)
    ensures r1[0] == r2[0]
  {
    var a := r1[0];
    var b := r2[0];
    NamedHead(r1);
    NamedHead(r2);
    assert a in Named(r2, a.name);
    assert b in Named(r1, b.name);
    SortedHeadLeast(r2, a);
    SortedHeadLeast(r1, b);
    NameLeAntisym(a.name, b.name);
    assert Named(r1, a.name)[0] == a && Named(r2, a.name)[0] == b;
  }

  /** A stable sort by name of `s` is `SortByName(s)`. */
  lemma SortByNameIsStableSort(s: seq<Obj>, r: seq<Obj>)
    requires SortedByName(r)
    requires forall n :: Named(r, n) == Named(s, n)
    ensures r == SortByName(s)
  {
    SortSorted(s);
    forall n ensures Named(r, n) == Named(SortByName(s), n) {
      SortStable(s, n);
    }
    StableSortUnique(r, SortByName(s));
  }
}

/** The state pages of web_flask/7-states_list.py and web_flask/9-states.py:
    every state sorted by name, and the state with a given id. */
module StatePages {
  import opened Wrappers
  import opened Registry
  import opened Identity
  import opened Rows
  import opened PyDict
  import opened DBStorage
  import opened StorageLaws
  import opened NameOrder

  /** `storage.all(State)`. */
  const StateArg: ClsArg := Class(Registered(State))

  /** `sorted(storage.all(State).values(), key=lambda s: s.name)`: the list
      both `states_list()` and `states()` hand to their template. */
  function SortedStates(e: Engine): (r: Result<seq<Obj>, StorageError>)
    requires WellFormed(e)
    ensures r.Failure? <==> e.session.None?
    ensures r.Success? ==>
      && SortedByName(r.value)
      && multiset(r.value) == multiset(Values(All(e, StateArg).value))
      && (forall n :: Named(r.value, n) == Named(Values(All(e, StateArg).value), n))
  {
    match All(e, StateArg)
    case Failure(err) => Failure(err)
    case Success(d) =>
      var vs := Values(d);
      SortSorted(vs);
      assert forall n :: Named(SortByName(vs), n) == Named(vs, n) by {
        forall n ensures Named(SortByName(vs), n) == Named(vs, n) {
          SortStable(vs, n);
        }
      }
      Success(SortByName(vs))
  }

  /** The states page lists exactly the states the session sees, each once,
      and nothing else. */
  lemma SortedStatesContents(e: Engine, o: Obj)
    requires WellFormed(e) && e.session.Some?
    ensures var r := SortedStates(e).value;
      o in r <==> o.kind == State && Seen(e.db, e.session.value, RefOf(o)) == Some(o)
  {
    var vs := Values(All(e, StateArg).value);
    AllOneKind(e, StateArg, State);
    QueryContents(e.db, e.session.value, State, o);
    assert o in SortedStates(e).value <==> o in multiset(vs);
  }

  /** The first row whose id is `id`, if any: the loop of `states_id`. */
  function FirstWithId(vs: seq<Obj>, id: string): (r: Option<Obj>)
    ensures r.None? <==> forall i :: 0 <= i < |vs| ==> vs[i].id != id
    ensures r.Some? ==> r.value.id == id
    ensures r.Some? ==>
      exists i :: 0 <= i < |vs| && vs[i] == r.value && (forall j :: 0 <= j < i ==> vs[j].id != id)
    decreases |vs|
  {
    if |vs| == 0 then None
    else if vs[0].id == id then Some(vs[0])
    else
      var r := FirstWithId(vs[1..], id);
      assert forall j :: 1 <= j < |vs| ==> vs[j] == vs[1..][j - 1];
      r
  }

  /** `states_id(id)` walks the values in order and stops at the first
      state whose id matches; `None` renders the page without a state. */
  method StateById(vs: seq<Obj>, id: string) returns (r: Option<Obj>)
    ensures r == FirstWithId(vs, id)
  {
    var i := 0;
    while i < |vs|
      invariant 0 <= i <= |vs|
      invariant FirstWithId(vs, id) == FirstWithId(vs[i..], id)
    {
      if vs[i].id == id {
        return Some(vs[i]);
      }
      assert vs[i..][1..] == vs[i + 1..];
      i := i + 1;
    }
    return None;
  }

  /** The page for one state: `None` when the session sees no state with
      that id. */
  function StatePage(e: Engine, id: string): (r: Result<Option<Obj>, StorageError>)
    requires WellFormed(e)
    ensures r.Failure? <==> e.session.None?
  {
    match All(e, StateArg)
    case Failure(err) => Failure(err)
    case Success(d) => Success(FirstWithId(Values(d), id))
  }

  /** Among rows of one kind with distinct slots, the first row with a
      given id is the row in that slot. */
  lemma {:induction false} FirstWithIdIsLookup(vs: seq<Obj>, k: Kind, id: string)
    requires AllOfKind(vs, k)
    ensures FirstWithId(vs, id) == Lookup(vs, Ref(k, id))
    decreases |vs|
  {
    if |vs| > 0 && vs[0].id != id {
      assert AllOfKind(vs[1..], k) by {
        forall i | 0 <= i < |vs[1..]| ensures vs[1..][i].kind == k {
          assert vs[1..][i] == vs[i + 1];
        }
      }
      FirstWithIdIsLookup(vs[1..], k, id);
    }
  }

  /** The page for `id` shows exactly the state the session sees in slot
      `State.id`, and no state when that slot is empty. */
  lemma StatePageShowsSlot(e: Engine, id: string)
    requires WellFormed(e) && e.session.Some?
    ensures StatePage(e, id) == Success(Seen(e.db, e.session.value, Ref(State, id)))
  {
    AllOneKind(e, StateArg, State);
    var q := Query(e.db, e.session.value, State);
    FirstWithIdIsLookup(q, State, id);
  }
}

=== FILE: storage_laws.dfy ===
/** What callers of `DBStorage` can rely on, proved from the model:
    the contents of `all`, and how `new`, `delete`, `save`, `reload` and
    construction change what it returns. */
module StorageLaws {
  import opened Wrappers
  import opened Registry
  import opened Identity
  import opened Rows
  import opened PyDict
  import opened DBStorage

  // ---------------------------------------------------------------------
  // The contents of `all`
  // ---------------------------------------------------------------------

  /** `all(arg)` files an object under its identity key exactly when the
      object is of a kind `arg` selects and the session sees it. */
  lemma AllContents(e: Engine, arg: ClsArg, o: Obj)
    requires WellFormed(e) && e.session.Some?
    ensures var d := All(e, arg).value;
      (Key(o) in d.entries && d.entries[Key(o)] == o)
      <==> Matches(arg, o.kind) && Seen(e.db, e.session.value, RefOf(o)) == Some(o)
  {
    var s := e.session.value;
    FetchedContents(e.db, s, arg);
    FiledContents(All(e, arg).value, Fetched(e.db, s, arg), o);
  }

  /** A dictionary whose keys and values are those of the objects `f`, in
      order, holds `o` under `Key(o)` exactly when `o` is one of them. */
  lemma FiledContents(d: Dict<Obj>, f: seq<Obj>, o: Obj)
    requires PyDict.Valid(d) && d.keys == KeysOf(f) && Values(d) == f
    ensures (Key(o) in d.entries && d.entries[Key(o)] == o) <==> o in f
  {
    if o in f {
      var i :| 0 <= i < |f| && f[i] == o;
      assert Values(d)[i] == o && d.keys[i] == Key(o);
    }
    if Key(o) in d.entries && d.entries[Key(o)] == o {
      var i :| 0 <= i < |d.keys| && d.keys[i] == Key(o);
      assert Values(d)[i] == f[i];
    }
  }

  /** Every key of `all` is `ClassName.id` of the object stored under it,
      and reads back as that object's slot. */
  lemma AllKeysNameTheirObjects(e: Engine, arg: ClsArg)
    requires WellFormed(e)
    requires All(e, arg).Success?
    ensures var d := All(e, arg).value;
      forall key :: key in d.entries ==>
        key == Key(d.entries[key]) && ParseKey(key) == Some(RefOf(d.entries[key]))
  {
    var d := All(e, arg).value;
    forall key | key in d.entries
      ensures key == Key(d.entries[key]) && ParseKey(key) == Some(RefOf(d.entries[key]))
    {
      var i :| 0 <= i < |d.keys| && d.keys[i] == key;
      assert Values(d)[i] == d.entries[key];
      ParseKeyOf(d.entries[key].kind, d.entries[key].id);
    }
  }

  /** An argument that names no registered class, and no registered class
      object, selects nothing: `all` returns `{}` and does not fall back to
      every kind. */
  lemma AllUnknownIsEmpty(e: Engine, arg: ClsArg)
    requires WellFormed(e) && !SelectsSomeKind(arg)
    ensures All(e, arg) == Success(Empty())
  {
    if e.session.Some? {
      FetchedUnknownIsEmpty(e.db, e.session.value, arg);
      NoKeys(All(e, arg).value);
    }
  }

  lemma FetchedUnknownIsEmpty(db: Database, s: Session, arg: ClsArg)
    requires ValidDb(db) && ValidSession(s) && !SelectsSomeKind(arg)
    ensures Fetched(db, s, arg) == []
  {
    SelectsSomeKindMeansMatch(arg);
    forall i | 0 <= i < |ClassMap| ensures !PairMatches(arg, ClassMap[i]) {
      PairMatchesClassMap(arg, i);
    }
    FetchedFromNone(Snapshot(db, s), ClassMap, arg);
  }

  /** A walk in which no entry passes the line-64 test fetches nothing. */
  lemma {:induction false} FetchedFromNone(rows: map<Kind, seq<Obj>>, pairs: seq<(string, Kind)>, arg: ClsArg)
    requires forall i :: 0 <= i < |pairs| ==> !PairMatches(arg, pairs[i])
    ensures FetchedFrom(rows, pairs, arg) == []
    decreases |pairs|
  {
    if |pairs| > 0 {
      assert !PairMatches(arg, pairs[0]);
      FetchedFromNone(rows, pairs[1..], arg);
    }
  }

  /** The objects `all` fetches for one kind. */
  function PerKind(rows: map<Kind, seq<Obj>>, arg: ClsArg, k: Kind): seq<Obj> {
    if Matches(arg, k) && k in rows then rows[k] else []
  }

  lemma FetchedFromCons(rows: map<Kind, seq<Obj>>, n: string, k: Kind, pairs: seq<(string, Kind)>, arg: ClsArg)
    requires n == Name(k)
    ensures FetchedFrom(rows, [(n, k)] + pairs, arg) == PerKind(rows, arg, k) + FetchedFrom(rows, pairs, arg)
  {
    assert ([(n, k)] + pairs)[1..] == pairs;
  }

  /** The class-map walk visits the kinds in declaration order. */
  lemma FetchedInClassMapOrder(rows: map<Kind, seq<Obj>>, arg: ClsArg)
    ensures FetchedFrom(rows, ClassMap, arg) ==
      PerKind(rows, arg, User) + (PerKind(rows, arg, Place) + (PerKind(rows, arg, State)
      + (PerKind(rows, arg, City) + (PerKind(rows, arg, Amenity) + PerKind(rows, arg, Review)))))
  {
    var p6: seq<(string, Kind)> := [];
    var p5 := [("Review", Review)] + p6;
    var p4 := [("Amenity", Amenity)] + p5;
    var p3 := [("City", City)] + p4;
    var p2 := [("State", State)] + p3;
    var p1 := [("Place", Place)] + p2;
    var p0 := [("User", User)] + p1;
    assert p0 == ClassMap;
    FetchedFromCons(rows, "Review", Review, p6, arg);
    assert FetchedFrom(rows, p5, arg) == PerKind(rows, arg, Review);
    FetchedFromCons(rows, "Amenity", Amenity, p5, arg);
    FetchedFromCons(rows, "City", City, p4, arg);
    FetchedFromCons(rows, "State", State, p3, arg);
    FetchedFromCons(rows, "Place", Place, p2, arg);
    FetchedFromCons(rows, "User", User, p1, arg);
  }

  /** When `arg` selects kind `k` only, the walk fetches that kind's rows
      if the entries list it, and nothing otherwise. */
  lemma {:induction false} FetchedFromOneKind(rows: map<Kind, seq<Obj>>, pairs: seq<(string, Kind)>, arg: ClsArg, k: Kind)
    requires NamedAfterKinds(pairs) && k in rows
    requires forall k' :: Matches(arg, k') <==> k' == k
    ensures FetchedFrom(rows, pairs, arg) == if Lists(pairs, k) then rows[k] else []
    decreases |pairs|
  {
    if |pairs| > 0 {
      var rest := pairs[1..];
      assert NamedAfterKinds(rest) by {
        forall i | 0 <= i < |rest| ensures rest[i] == pairs[i + 1] { }
      }
      FetchedFromOneKind(rows, rest, arg, k);
      ListsTail(pairs, k);
      assert PairMatches(arg, pairs[0]) <==> Matches(arg, pairs[0].1);
      if pairs[0].1 == k {
        assert !Lists(rest, k);
        assert FetchedFrom(rows, pairs, arg) == rows[k] + [];
      } else {
        assert FetchedFrom(rows, pairs, arg) == [] + FetchedFrom(rows, rest, arg);
      }
    }
  }

  /** An argument naming a registered kind, as a class or by name, selects
      that kind and no other. */
  lemma SelectsExactly(arg: ClsArg, k: Kind)
    requires arg == Class(Registered(k)) || arg == ClassName(Name(k))
    ensures forall k' :: Matches(arg, k') <==> k' == k
  {
    forall k' ensures Matches(arg, k') <==> k' == k {
      NameInjective(k, k');
    }
  }

  /** What `all` fetches for a registered kind is that kind's query. */
  lemma FetchedOneKind(db: Database, s: Session, arg: ClsArg, k: Kind)
    requires ValidDb(db) && ValidSession(s)
    requires arg == Class(Registered(k)) || arg == ClassName(Name(k))
    ensures Fetched(db, s, arg) == Query(db, s, k)
  {
    SelectsExactly(arg, k);
    ClassMapShape();
    FetchedFromOneKind(Snapshot(db, s), ClassMap, arg, k);
  }

  /** `all(k)` and `all("K")` for a registered kind return exactly what a
      query of that kind returns, in that order, and nothing of another kind. */
  lemma AllOneKind(e: Engine, arg: ClsArg, k: Kind)
    requires WellFormed(e) && e.session.Some?
    requires arg == Class(Registered(k)) || arg == ClassName(Name(k))
    ensures Values(All(e, arg).value) == Query(e.db, e.session.value, k)
    ensures forall o :: o in Values(All(e, arg).value) ==> o.kind == k
  {
    FetchedOneKind(e.db, e.session.value, arg, k);
  }

  /** With no argument `all` fetches every kind, in class-map order. */
  lemma FetchedEveryKind(db: Database, s: Session)
    requires ValidDb(db) && ValidSession(s)
    ensures Fetched(db, s, NoClass) ==
      Query(db, s, User) + Query(db, s, Place) + Query(db, s, State)
      + Query(db, s, City) + Query(db, s, Amenity) + Query(db, s, Review)
  {
    var rows := Snapshot(db, s);
    FetchedInClassMapOrder(rows, NoClass);
    assert Fetched(db, s, NoClass) == FetchedFrom(rows, ClassMap, NoClass);
    assert PerKind(rows, NoClass, User) == Query(db, s, User);
    assert PerKind(rows, NoClass, Place) == Query(db, s, Place);
    assert PerKind(rows, NoClass, State) == Query(db, s, State);
    assert PerKind(rows, NoClass, City) == Query(db, s, City);
    assert PerKind(rows, NoClass, Amenity) == Query(db, s, Amenity);
    assert PerKind(rows, NoClass, Review) == Query(db, s, Review);
    Regroup(Query(db, s, User), Query(db, s, Place), Query(db, s, State),
      Query(db, s, City), Query(db, s, Amenity), Query(db, s, Review));
  }

  lemma Regroup<T>(a: seq<T>, b: seq<T>, c: seq<T>, d: seq<T>, e: seq<T>, f: seq<T>)
    ensures a + (b + (c + (d + (e + f)))) == a + b + c + d + e + f
  {
  }

  /** `all()` holds one entry for every object of every registered kind,
      the kinds in class-map order. */
  lemma AllEveryKind(e: Engine)
    requires WellFormed(e) && e.session.Some?
    ensures var s := e.session.value;
      Values(All(e, NoClass).value) ==
        Query(e.db, s, User) + Query(e.db, s, Place) + Query(e.db, s, State)
        + Query(e.db, s, City) + Query(e.db, s, Amenity) + Query(e.db, s, Review)
    ensures var s := e.session.value;
      |All(e, NoClass).value.entries| ==
        |Query(e.db, s, User)| + |Query(e.db, s, Place)| + |Query(e.db, s, State)|
        + |Query(e.db, s, City)| + |Query(e.db, s, Amenity)| + |Query(e.db, s, Review)|
  {
    var d := All(e, NoClass).value;
    FetchedEveryKind(e.db, e.session.value);
    Size(d);
  }

  // ---------------------------------------------------------------------
  // Session lifecycle
  // ---------------------------------------------------------------------

  lemma {:induction false} WithoutNothing(t: seq<Obj>)
    ensures Without(t, {}) == t
  {
    if |t| > 0 {
      WithoutNothing(t[1..]);
      assert [t[0]] + t[1..] == t;
    }
  }

  /** Through a fresh session, a query returns the committed table as is. */
  lemma QueryFresh(db: Database, k: Kind)
    requires ValidDb(db)
    ensures Query(db, FreshSession, k) == Table(db, k)
  {
    WithoutNothing(Table(db, k));
    assert Select(FreshSession.adds, k) == [];
  }

  /** Queries that agree kind by kind make `all` agree. */
  lemma AllAgree(e1: Engine, e2: Engine, arg: ClsArg)
    requires WellFormed(e1) && WellFormed(e2) && e1.session.Some? && e2.session.Some?
    requires forall k :: Query(e1.db, e1.session.value, k) == Query(e2.db, e2.session.value, k)
    ensures All(e1, arg) == All(e2, arg)
  {
    assert Fetched(e1.db, e1.session.value, arg) == Fetched(e2.db, e2.session.value, arg) by {
      SnapshotAgree(e1.db, e1.session.value, e2.db, e2.session.value);
    }
    AllIsPopulate(e1, arg);
    AllIsPopulate(e2, arg);
  }

  /** Sessions whose queries agree kind by kind have the same snapshot. */
  lemma SnapshotAgree(db1: Database, s1: Session, db2: Database, s2: Session)
    requires ValidDb(db1) && ValidSession(s1) && ValidDb(db2) && ValidSession(s2)
    requires forall k :: Query(db1, s1, k) == Query(db2, s2, k)
    ensures Snapshot(db1, s1) == Snapshot(db2, s2)
  {
  }

  /** With a session, `all` is `{}` filled with everything it fetches. */
  lemma AllIsPopulate(e: Engine, arg: ClsArg)
    requires WellFormed(e) && e.session.Some?
    ensures All(e, arg) == Success(Populate(Empty(), Fetched(e.db, e.session.value, arg)))
  {
    CollectFiles(e.db, e.session.value, ClassMap, arg, Empty());
  }

  /** `save()` commits what the session already showed: every query, and
      so every `all`, returns the same before and after the commit. */
  lemma SaveKeepsQueries(e: Engine, arg: ClsArg)
    requires WellFormed(e) && e.session.Some?
    ensures Save(e).Success?
    ensures forall k :: Query(Save(e).value.db, FreshSession, k) == Query(e.db, e.session.value, k)
    ensures All(Save(e).value, arg) == All(e, arg)
  {
    var e' := Save(e).value;
    forall k ensures Query(e'.db, FreshSession, k) == Query(e.db, e.session.value, k) {
      QueryFresh(e'.db, k);
    }
    AllAgree(e', e, arg);
  }

  /** `reload()` abandons pending work: afterwards queries return the
      committed tables, and a slot is seen exactly as committed. */
  lemma ReloadShowsCommitted(e: Engine)
    requires ValidDb(e.db)
    ensures forall k :: Query(Reload(e).db, FreshSession, k) == Table(e.db, k)
    ensures forall r :: Seen(Reload(e).db, FreshSession, r) == Lookup(Table(e.db, r.kind), r)
  {
    forall k ensures Query(Reload(e).db, FreshSession, k) == Table(e.db, k) {
      QueryFresh(Reload(e).db, k);
    }
  }

  /** Durability: an object passed to `new` and then `save` is found by
      `all()` after a later `reload`. */
  lemma NewSaveReloadRoundTrip(e: Engine, o: Obj)
    requires WellFormed(e) && e.session.Some?
    ensures New(e, o).Success?
    ensures Save(New(e, o).value).Success?
    ensures var e3 := Reload(Save(New(e, o).value).value);
      && WellFormed(e3)
      && Key(o) in All(e3, NoClass).value.entries
      && All(e3, NoClass).value.entries[Key(o)] == o
  {
    var e1 := New(e, o).value;
    var e2 := Save(e1).value;
    var e3 := Reload(e2);
    assert Seen(e2.db, FreshSession, RefOf(o)) == Some(o);
    assert Seen(e3.db, FreshSession, RefOf(o)) == Some(o);
    AllContents(e3, NoClass, o);
  }

  /** An object added and then deleted before `save` leaves no trace in
      the committed tables; every other slot is committed as the session
      showed it. */
  lemma NewDeleteSaveLeavesNoTrace(e: Engine, o: Obj)
    requires WellFormed(e) && e.session.Some?
    ensures New(e, o).Success?
    ensures Delete(New(e, o).value, Some(o)).Success?
    ensures var e3 := Save(Delete(New(e, o).value, Some(o)).value).value;
      forall r :: Seen(e3.db, FreshSession, r) == if r == RefOf(o) then None else Seen(e.db, e.session.value, r)
  {
  }

  /** Construction in test mode followed by `reload` starts from empty
      tables, and `all()` returns `{}`. */
  lemma TestModeStartsEmpty(db: Database)
    requires ValidDb(db)
    ensures var e1 := Reload(Init(Some("test"), db));
      && WellFormed(e1)
      && (forall k :: Query(e1.db, FreshSession, k) == [])
      && All(e1, NoClass) == Success(Empty())
  {
    var e1 := Reload(Init(Some("test"), db));
    ReloadShowsCommitted(Init(Some("test"), db));
    AllAgreesEmpty(e1);
  }

  /** A session that sees nothing, given one object, sees exactly it. */
  lemma NewIntoEmpty(e: Engine, u: Obj)
    requires WellFormed(e) && e.session.Some?
    requires forall k :: Query(e.db, e.session.value, k) == []
    ensures New(e, u).Success?
    ensures Query(New(e, u).value.db, New(e, u).value.session.value, u.kind) == [u]
  {
    var e2 := New(e, u).value;
    var q := Query(e2.db, e2.session.value, u.kind);
    forall x | x in q ensures x == u {
      QueryContents(e2.db, e2.session.value, u.kind, x);
      QueryContents(e.db, e.session.value, x.kind, x);
    }
    QueryContents(e2.db, e2.session.value, u.kind, u);
    OnlyElement(q, u);
  }

  /** Saving a session in which a kind's query returns exactly `u`
      commits exactly `u` for that kind. */
  lemma SavedFirst(e: Engine, u: Obj)
    requires WellFormed(e) && e.session.Some?
    requires forall k :: Query(e.db, e.session.value, k) == []
    ensures New(e, u).Success? && Save(New(e, u).value).Success?
    ensures var e3 := Save(New(e, u).value).value;
      && WellFormed(e3) && e3.session == Some(FreshSession)
      && Query(e3.db, FreshSession, u.kind) == [u]
  {
    NewIntoEmpty(e, u);
    SaveKeepsQueries(New(e, u).value, NoClass);
  }

  /** When the query for users returns just `u`, `all("User")` is `u`
      under its key. */
  lemma AllOfOneUser(e: Engine, u: Obj)
    requires WellFormed(e) && e.session.Some? && u.kind == User
    requires Query(e.db, e.session.value, User) == [u]
    ensures All(e, ClassName("User")) == Success(Dict([Key(u)], map[Key(u) := u]))
  {
    FetchedOneKind(e.db, e.session.value, ClassName("User"), User);
    AllOfOne(e, ClassName("User"), u);
  }

  /** When `all` fetches a single object, it is that object under its key. */
  lemma AllOfOne(e: Engine, arg: ClsArg, u: Obj)
    requires WellFormed(e) && e.session.Some?
    requires Fetched(e.db, e.session.value, arg) == [u]
    ensures All(e, arg) == Success(Dict([Key(u)], map[Key(u) := u]))
  {
    var d := All(e, arg).value;
    OneEntry(d, u);
  }

  /** A dictionary filed from the single object `u` is `{Key(u): u}`. */
  lemma OneEntry(d: Dict<Obj>, u: Obj)
    requires PyDict.Valid(d) && d.keys == KeysOf([u]) && Values(d) == [u]
    ensures d == Dict([Key(u)], map[Key(u) := u])
  {
    assert KeysOf([u]) == [Key(u)];
    Single(d, Key(u), u);
  }

  /** After a first user is added and saved into empty storage,
      `all("User")` is exactly that user under its key. */
  lemma FirstUserSaved(e: Engine, u: Obj)
    requires WellFormed(e) && e.session.Some? && u.kind == User
    requires forall k :: Query(e.db, e.session.value, k) == []
    ensures New(e, u).Success?
    ensures Save(New(e, u).value).Success?
    ensures All(Save(New(e, u).value).value, ClassName("User")) == Success(Dict([Key(u)], map[Key(u) := u]))
  {
    SavedFirst(e, u);
    AllOfOneUser(Save(New(e, u).value).value, u);
  }

  lemma UserKey(id: string)
    ensures KeyOf(User, id) == "User." + id
  {
    assert Name(User) == "User";
  }

  /** The test-mode scenario end to end: construction with
      `HBNB_ENV=test` and `reload` give empty storage, and a user then
      added and saved is the whole of `all("User")`, filed as `User.<id>`. */
  lemma TestModeScenario(db: Database, u: Obj)
    requires ValidDb(db) && u.kind == User
    ensures var e1 := Reload(Init(Some("test"), db));
      && All(e1, NoClass) == Success(Empty())
      && New(e1, u).Success?
      && Save(New(e1, u).value).Success?
      && All(Save(New(e1, u).value).value, ClassName("User"))
         == Success(Dict(["User." + u.id], map["User." + u.id := u]))
  {
    var e1 := Reload(Init(Some("test"), db));
    TestModeStartsEmpty(db);
    FirstUserSaved(e1, u);
    UserKey(u.id);
  }

  /** When every query returns nothing, so does `all()`. */
  lemma AllAgreesEmpty(e: Engine)
    requires WellFormed(e) && e.session.Some?
    requires forall k :: Query(e.db, e.session.value, k) == []
    ensures All(e, NoClass) == Success(Empty())
  {
    AllEveryKind(e);
    var d := All(e, NoClass).value;
    assert |d.keys| == 0;
    assert d.entries == map[];
  }

  /** A duplicate-free sequence whose every element is `u` is `[u]`. */
  lemma OnlyElement(q: seq<Obj>, u: Obj)
    requires DistinctRefs(q) && u in q
    requires forall x :: x in q ==> x == u
    ensures q == [u]
  {
    assert q[0] in q;
    SecondDiffers(q);
  }

  lemma SecondDiffers(q: seq<Obj>)
    requires DistinctRefs(q)
    ensures |q| > 1 ==> q[1] in q && RefOf(q[1]) != RefOf(q[0])
  {
  }

  /** Outside test mode construction keeps the committed data, and after
      `reload` every query returns it. */
  lemma InitKeepsDataOutsideTest(env: Option<string>, db: Database)
    requires ValidDb(db) && env != Some("test")
    ensures forall k :: Query(Reload(Init(env, db)).db, FreshSession, k) == Table(db, k)
  {
    ReloadShowsCommitted(Init(env, db));
  }
}

=== FILE: text_routes.dfy ===
/** The plain-text pages of the two small Flask applications
    (web_flask/3-python_route.py and web_flask/4-number_route.py): fixed
    greetings, echoed URL text with underscores turned into spaces, and a
    number rendered in decimal. Both applications define the same handlers;
    they are modelled once here and the two route tables reuse them. */
module TextRoutes {
  import opened Wrappers

  // ---------------------------------------------------------------------
  // `str.replace("_", " ")` and its inverse on space-free text
  // ---------------------------------------------------------------------

  /** `text.replace("_", " ")`: every underscore becomes a space, every
      other character stays where it was. */
  function SpaceOut(t: string): (r: string)
    ensures |r| == |t|
    ensures forall i :: 0 <= i < |t| ==> r[i] == (if t[i] == '_' then ' ' else t[i])
    ensures '_' !in r
  {
    if |t| == 0 then []
    else [if t[0] == '_' then ' ' else t[0]] + SpaceOut(t[1..])
  }

  /** `text.replace(" ", "_")`, used only to state what `SpaceOut` loses. */
  function UnderscoreSpaces(t: string): (r: string)
    ensures |r| == |t|
    ensures forall i :: 0 <= i < |t| ==> r[i] == (if t[i] == ' ' then '_' else t[i])
  {
    if |t| == 0 then []
    else [if t[0] == ' ' then '_' else t[0]] + UnderscoreSpaces(t[1..])
  }

  /** Text that had no spaces can be read back from the page: spaces on
      the page are exactly the underscores of the URL. */
  lemma SpaceOutRoundTrip(t: string)
    requires ' ' !in t
    ensures UnderscoreSpaces(SpaceOut(t)) == t
  {
    var r := UnderscoreSpaces(SpaceOut(t));
    forall i | 0 <= i < |t| ensures r[i] == t[i] {
      assert t[i] != ' ';
    }
  }

  /** Text without underscores passes through unchanged, and replacing
      twice is replacing once. */
  lemma SpaceOutFixes(t: string)
    ensures '_' !in t ==> SpaceOut(t) == t
    ensures SpaceOut(SpaceOut(t)) == SpaceOut(t)
  {
    if '_' !in t {
      forall i | 0 <= i < |t| ensures SpaceOut(t)[i] == t[i] {
        assert t[i] != '_';
      }
    }
    var u := SpaceOut(t);
    forall i | 0 <= i < |u| ensures SpaceOut(u)[i] == u[i] {
      assert u[i] != '_';
    }
  }

  // ---------------------------------------------------------------------
  // The handlers
  // ---------------------------------------------------------------------

  /** `hello_hbnb()` at `/`. */
  const HelloPage: string := "Hello HBNB!"

  /** `HBNB()` at `/hbnb`. */
  const HbnbPage: string := "HBNB"

  /** The text `text_to_python` uses when the URL is `/python/`. */
  const DefaultPythonText: string := "is_cool"

  /** `"{prefix} {}".format(text.replace("_", " "))`: the prefix, one space,
      then the URL text with its underscores spaced out. */
  function Caption(prefix: string, t: string): (r: string)
    ensures |r| == |prefix| + 1 + |t|
    ensures r[..|prefix|] == prefix && r[|prefix|] == ' '
    ensures forall i :: 0 <= i < |t| ==>
      r[|prefix| + 1 + i] == (if t[i] == '_' then ' ' else t[i])
    ensures '_' !in prefix ==> '_' !in r
  {
    prefix + " " + SpaceOut(t)
  }

  /** `text_to_display(text)` at `/c/<text>`. */
  function CPage(t: string): (r: string)
    ensures |r| == |t| + 2 && r[..2] == "C "
    ensures forall i :: 0 <= i < |t| ==> r[2 + i] == (if t[i] == '_' then ' ' else t[i])
    ensures '_' !in r
  {
    Caption("C", t)
  }

  /** `text_to_python(text)` at `/python/<text>`, and at `/python/` with
      the default text when `text` is `None`. */
  function PythonPage(text: Option<string>): (r: string)
    ensures var t := text.GetOr(DefaultPythonText);
      && |r| == |t| + 7 && r[..7] == "Python "
      && (forall i :: 0 <= i < |t| ==> r[7 + i] == (if t[i] == '_' then ' ' else t[i]))
    ensures '_' !in r
  {
    Caption("Python", text.GetOr(DefaultPythonText))
  }

  /** `/python/` shows "Python is cool". */
  lemma PythonDefault()
    ensures PythonPage(None) == "Python is cool"
  {
    var t := DefaultPythonText;
    assert SpaceOut(t) == "is cool" by {
      var u := SpaceOut(t);
      assert t[0] == 'i' && t[1] == 's' && t[2] == '_' && t[3] == 'c';
      assert t[4] == 'o' && t[5] == 'o' && t[6] == 'l';
    }
  }

  /** The page text after its prefix gives back the URL text whenever that
      text had no spaces. */
  lemma CaptionRecoversText(prefix: string, t: string)
    requires ' ' !in t
    ensures UnderscoreSpaces(Caption(prefix, t)[|prefix| + 1..]) == t
  {
    var r := Caption(prefix, t);
    assert r[|prefix| + 1..] == SpaceOut(t);
    SpaceOutRoundTrip(t);
  }

  // ---------------------------------------------------------------------
  // Decimal numbers: `"{}".format(n)` and the `<int:n>` converter
  // ---------------------------------------------------------------------

  predicate IsDigit(c: char) {
    '0' <= c <= '9'
  }

  predicate AllDigits(s: string) {
    forall i :: 0 <= i < |s| ==> IsDigit(s[i])
  }

  /** No leading zero, except for "0" itself. */
  predicate Canonical(s: string) {
    |s| > 0 && AllDigits(s) && (|s| == 1 || s[0] != '0')
  }

  function DigitChar(d: nat): (c: char)
    requires d < 10
    ensures IsDigit(c) && c as int - '0' as int == d
  {
    ('0' as int + d) as char
  }

  function DigitValue(c: char): (d: nat)
    requires IsDigit(c)
    ensures d < 10 && DigitChar(d) == c
    ensures c == '0' <==> d == 0
  {
    (c as int - '0' as int) as nat
  }

  /** `str(n)` for a non-negative integer: its decimal digits, most
      significant first, without leading zeros. */
  function Decimal(n: nat): (s: string)
    ensures Canonical(s)
    decreases n
  {
    if n < 10 then [DigitChar(n)]
    else
      var p := Decimal(n / 10);
      assert p[0] == (p + [DigitChar(n % 10)])[0];
      p + [DigitChar(n % 10)]
  }

  /** The value of a string of decimal digits. */
  function DigitsValue(s: string): nat
    requires AllDigits(s)
    decreases |s|
  {
    if |s| == 0 then 0
    else DigitsValue(s[..|s| - 1]) * 10 + DigitValue(s[|s| - 1])
  }

  /** The `<int:n>` URL converter: one or more decimal digits, read as a
      non-negative integer; anything else does not match the route. */
  function ParseInt(s: string): (r: Option<nat>)
    ensures r.Some? <==> |s| > 0 && AllDigits(s)
  {
    if |s| > 0 && AllDigits(s) then Some(DigitsValue(s)) else None
  }

  /** Reading back a rendered number gives the number. */
  lemma {:induction false} DecimalRoundTrip(n: nat)
    ensures ParseInt(Decimal(n)) == Some(n)
    decreases n
  {
    var s := Decimal(n);
    if n < 10 {
      assert s[..0] == [] && DigitValue(s[0]) == n;
      assert DigitsValue(s) == DigitsValue(s[..0]) * 10 + DigitValue(s[0]);
    } else {
      DecimalRoundTrip(n / 10);
      assert s[..|s| - 1] == Decimal(n / 10);
    }
  }

  /** A string of digits with a non-zero lead has a non-zero value. */
  lemma {:induction false} LeadingDigitCounts(s: string)
    requires |s| > 0 && AllDigits(s) && s[0] != '0'
    ensures DigitsValue(s) >= 1
    ensures |s| > 1 ==> DigitsValue(s) >= 10
    decreases |s|
  {
    if |s| > 1 {
      var p := s[..|s| - 1];
      assert p[0] == s[0];
      LeadingDigitCounts(p);
    } else {
      assert DigitValue(s[0]) != 0;
    }
  }

  /** Rendering the value of a canonical digit string gives the string
      back: the canonical form is the only text the renderer produces. */
  lemma {:induction false} CanonicalRoundTrip(s: string)
    requires Canonical(s)
    ensures Decimal(DigitsValue(s)) == s
    decreases |s|
  {
    if |s| > 1 {
      var p := s[..|s| - 1];
      assert p[0] == s[0];
      LeadingDigitCounts(s);
      LeadingDigitCounts(p);
      CanonicalRoundTrip(p);
      assert s == p + [s[|s| - 1]];
    }
  }

  const NumberSuffix: string := " is a number"

  /** `number_to_number(n)` at `/number/<int:n>`: the decimal rendering of
      `n` followed by " is a number". */
  function NumberPage(n: nat): (r: string)
    ensures |r| > |NumberSuffix| && r[|r| - |NumberSuffix|..] == NumberSuffix
    ensures Canonical(r[..|r| - |NumberSuffix|])
    ensures ParseInt(r[..|r| - |NumberSuffix|]) == Some(n)
  {
    var s := Decimal(n);
    var r := s + NumberSuffix;
    assert r[..|s|] == s && r[|s|..] == NumberSuffix;
    DecimalRoundTrip(n);
    r
  }

  /** Distinct numbers give distinct pages. */
  lemma NumberPageInjective(m: nat, n: nat)
    ensures NumberPage(m) == NumberPage(n) <==> m == n
  {
    if NumberPage(m) == NumberPage(n) {
      var r := NumberPage(m);
      assert ParseInt(r[..|r| - |NumberSuffix|]) == Some(m);
    }
  }

  // ---------------------------------------------------------------------
  // The two route tables
  // ---------------------------------------------------------------------

  /** A request that reached one of the declared URL rules, with its
      converted arguments; `Python(None)` is `/python/`. */
  datatype Request =
    | Root
    | Hbnb
    | C(text: string)
    | Python(given: Option<string>)
    | Number(n: nat)

  /** The `/number/<int:n>` rule applied to a raw path segment. */
  function NumberRequest(segment: string): (r: Option<Request>)
    ensures r.Some? <==> |segment| > 0 && AllDigits(segment)
    ensures r.Some? ==> r.value == Number(DigitsValue(segment))
  {
    match ParseInt(segment)
    case None => None
    case Some(n) => Some(Number(n))
  }

  /** The application of 3-python_route.py; `None` is a 404. Only the
      number route is missing, the C and python pages carry their prefix,
      and no page it serves holds an underscore. */
  function PythonApp(q: Request): (r: Option<string>)
    ensures r.None? <==> q.Number?
    ensures q.C? ==> r.Some? && |r.value| >= 2 && r.value[..2] == "C "
    ensures q.Python? ==> r.Some? && |r.value| >= 7 && r.value[..7] == "Python "
    ensures r.Some? ==> '_' !in r.value
  {
    match q
    case Root => Some(HelloPage)
    case Hbnb => Some(HbnbPage)
    case C(t) => Some(CPage(t))
    case Python(t) => Some(PythonPage(t))
    case Number(_) => None
  }

  /** The application of 4-number_route.py: every request is answered, a
      number request with its canonical decimal followed by the suffix. */
  function NumberApp(q: Request): (r: Option<string>)
    ensures r.Some?
    ensures q.Number? ==>
      var p := r.value;
      && |p| > |NumberSuffix| && p[|p| - |NumberSuffix|..] == NumberSuffix
      && ParseInt(p[..|p| - |NumberSuffix|]) == Some(q.n)
  {
    match q
    case Number(n) => Some(NumberPage(n))
    case _ => PythonApp(q)
  }

  /** The number application answers everything the python application
      answers, with the same page, and adds only the number route. */
  lemma NumberAppExtends(q: Request)
    ensures !q.Number? ==> NumberApp(q) == PythonApp(q)
    ensures q.Number? <==> PythonApp(q).None?
    ensures NumberApp(q).Some?
  {
  }

  /** The fixed pages, and the default python page, in both applications. */
  lemma FixedPages()
    ensures PythonApp(Root) == NumberApp(Root) == Some("Hello HBNB!")
    ensures PythonApp(Hbnb) == NumberApp(Hbnb) == Some("HBNB")
    ensures PythonApp(Python(None)) == NumberApp(Python(None)) == Some("Python is cool")
  {
    PythonDefault();
  }

  /** `/number/007` shows "7 is a number": leading zeros are dropped by the
      converter. */
  lemma NumberLeadingZeros()
    ensures NumberRequest("007") == Some(Number(7))
    ensures NumberApp(Number(7)) == Some("7 is a number")
  {
    var s := "007";
    assert DigitsValue(s[..1]) == 0 by {
      assert DigitsValue(s[..1]) == DigitsValue(s[..1][..0]) * 10 + DigitValue(s[0]);
    }
    assert DigitsValue(s[..2]) == 0 by {
      assert s[..2][..1] == s[..1];
    }
    assert DigitsValue(s) == 7 by {
      assert s[..3][..2] == s[..2] && DigitValue(s[2]) == 7;
    }
    assert Decimal(7) == ['7'];
    assert NumberPage(7) == ['7'] + NumberSuffix;
    assert ['7'] + NumberSuffix == "7 is a number" by {
      var r := ['7'] + NumberSuffix;
      forall i | 0 <= i < 13 ensures r[i] == "7 is a number"[i] {
        if i > 0 {
          assert r[i] == NumberSuffix[i - 1];
        }
      }
    }
  }
}

=== FILE: wrappers.dfy ===
/** Python's `None` and raised exceptions as values: the optional
    arguments and the error outcomes of the modelled code. */
module Wrappers {

  /** Python's `None` or a present value. */
  datatype Option<+T> = None | Some(value: T) {

    /** The wrapped value, or `default` when there is none. */
    function GetOr(default: T): T {
      match this
      case Some(v) => v
      case None => default
    }
  }

  /** Either a value, or the exception a Python call would raise. */
  datatype Result<+R, +E> = Success(value: R) | Failure(error: E)
}
